=== FILE: README.md ===
# vault-cli, modelled in Dafny

vault-cli is a small Go command-line tool (one file, `main.go`). It bootstraps and unseals a HashiCorp Vault
cluster. The Vault nodes are found through Consul. From Consul the tool reads two things: a key/value entry
holding the URL scheme of the Vault nodes, and the catalog of the Vault service.

- **bootstrap** looks at the first node of the catalog. If the node is not initialised, it initialises Vault
  there. It prints the unseal keys and the root token, and can save the same text to the file `vault-keys`.
  Then it sends the first *threshold* keys to every node and asks each node whether it is still sealed.
- **unseal** reads keys typed on one line of standard input. It refuses them unless their count, written in
  decimal, is the configured threshold string. Then, for every node that reports itself sealed, it sends
  every key and asks again.

This project models the decision-making core of the tool as pure functions. Every HTTP exchange is an
event in a trace. The replies are inputs:

- the Consul key/value reply and the catalog reply;
- the init reply;
- a *health oracle*, a function from (the trace so far, node URL) to the health reply.

Go's map iteration order is not fixed. So the order in which each loop visits the node map is also an
input, and `Consistent` requires it to list every key of the map exactly once. The goroutines that submit
keys are joined by a wait group before the re-probe. This is modelled as "every submission of the batch
comes before the probe that decides the verdict". Submissions appear in key order: the model keeps the
batch's keys, as a sequence and as a multiset, and not an interleaving.

Modules, one per file:

- `GoText` (`gotext.dfy`): the standard-library string operations the tool relies on — `strconv.Itoa`,
  `strconv.Atoi` (saturating at the int64 bounds), `strings.Replace` of one character, `strings.Split` on
  one character.
- `Base64` (`base64.dfy`): `base64.StdEncoding` (section 4 of RFC 4648). Its decoder is lenient, as Go's
  is: CR and LF are skipped, and after a fault the bytes decoded so far are kept.
- `Config` (`config.dfy`): `readConfig` and its `"default"` rewriting.
- `Registry` (`registry.dfy`): `getNodeOfService`, `getKVValue` and `getVaultHealth`, after the HTTP call.
- `Render` (`render.dfy`): the key template, and a parser that proves the format can be read back.
- `Events` (`events.dfy`): the trace vocabulary, the printed lines, and collectors (keys submitted,
  probes, init calls, file writes).
- `Orchestrator` (`orchestrator.dfy`): what both flows share — probing a node, a batch of submissions, a
  round per node, and the registry reads.
- `Bootstrap` and `BootstrapProperties` (`bootstrap.dfy`): `vaultBootstrap`.
- `Unseal` (`unseal.dfy`): `vaultUnsealCluster`.
- `Cli` (`cli.dfy`): `main`.

Where the documentation and the code disagree, the model follows the code:

- `Vault.Scheme` is used as the Consul key path (main.go:229). After defaulting, `"default"` therefore
  reads the key `http`; it is not a URL scheme.
- The catalog map is keyed by `string(CreateIndex)` (main.go:125). The test file expects node names.
  `string(i)` of an integer is the one-character string of code point `i`. It is U+FFFD for every integer
  that is not a Unicode scalar value, so all such indices collide (`Registry.RuneStringCollisions`).
- The unseal count check compares strings, while the bootstrap's key slice reads the threshold with `Atoi`
  (main.go:260), which takes `"03"` or `"+3"` as 3 (`GoText.Atoi`). The same text goes unchanged into the
  init request body (main.go:188, not modelled), and no key count ever passes the unseal check for it
  (`Unseal.NonCanonicalThresholdRejected`).

## Model

| member | source | states |
|---|---|---|
| Config.ApplyDefaults | main.go:340-348 | Each of Vault.Scheme and Consul.Scheme becomes "http" exactly when it is "default". Consul.Addr becomes "127.0.0.1:8500" exactly when it is "default". Every other field, and every field not holding the marker, is kept. No marker is left. |
| Config.ReadConfig | main.go:334-351 | The configuration returned carries no marker. It keeps the parsed init section and vault name. Vault.Scheme and Consul.Scheme are "http" when the file holds "default" and the file's value otherwise; Consul.Addr is "127.0.0.1:8500" when the file holds "default" and the file's value otherwise. This holds whether or not parsing reported an error. |
| Config.ApplyDefaultsIdempotent | main.go:340-348 | Defaulting twice gives the same configuration as defaulting once. |
| Config.ApplyDefaultsFixedPoints | main.go:340-348 | Defaulting leaves a configuration unchanged if and only if none of the three rewritten fields holds "default". |
| Registry.RuneString | main.go:125 | string(CreateIndex) is one character. That character is the code point itself for a Unicode scalar value, and U+FFFD for any other integer. |
| Registry.RuneStringCollisions | main.go:125 | Two scalar values give equal keys only when they are equal. Any two non-scalar indices give the same key. |
| Registry.BuildNodeMap | main.go:123-129 | Every record's key is in the map, and the map has no more entries than there are records. |
| Registry.NodeMapOnlyRecordKeys | main.go:123-129 | A key that no record is filed under is not in the map. |
| Registry.NodeMapLastWins | main.go:124-127 | The entry under a key is the address and decimal port of the last record filed under that key, so a later record overwrites an earlier one. |
| Registry.NodeMap | main.go:117-129 | A catalog reply that does not decode gives the empty (nil) map. A reply that decodes gives a map holding every record's key, with at most one entry per record. |
| Registry.NodeMapCollision | main.go:125 | Two records with the same CreateIndex leave the map with fewer entries than there are records. |
| Registry.NodeMapDistinctKeys | main.go:123-129 | Records with pairwise distinct keys give exactly one entry each. |
| Registry.BytesToText | main.go:150 | The text has one character per decoded byte, with the same code. |
| Registry.DecodeEach | main.go:148-151 | After the loop, the value is the decoded Value of the last record, or the initial value if there are no records. |
| Registry.KVValue | main.go:143-153 | The value is "" when the reply does not decode or holds no record. Otherwise it is the decoded Value of the last record. |
| Registry.KVValueRoundTrip | main.go:148-153 | When the last record's Value is the base64 encoding of some bytes, the value read is exactly those bytes. |
| Registry.HealthFlag | main.go:168-177 | "Sealed" selects the Sealed field and "Initialized" selects the Initialized field. Any other key gives false. |
| Registry.HealthFlagUndecodable | main.go:163-177 | A health reply that does not decode reads as neither sealed nor initialised. |
| Base64.CharOf | main.go:149 | Each 6-bit value has a character of the standard alphabet, and decoding that character gives the value back. |
| Base64.Encode | main.go:149 | The padded standard encoding, the reference the decoder is checked against: four characters per started group of three bytes, all from the alphabet or '='. |
| Base64.DecodeGroups | main.go:149 | A decode without error means the input length is a multiple of four and every character is from the alphabet or '='. At most three bytes come out per four characters. |
| Base64.DecodeString | main.go:149 | A decode without error means every character other than CR and LF is from the alphabet or '='. |
| Base64.DecodeStringSkipsLineFeed | main.go:149 | A line feed anywhere in the value is skipped: the decode is the same as without it. |
| Base64.DecodeStringSkipsCarriageReturn | main.go:149 | A carriage return anywhere in the value is skipped: the decode is the same as without it. |
| Base64.GroupRoundTrip | main.go:149 | The three bytes carried by four sextets are exactly the bytes those sextets were cut from. |
| Base64.DecodeFullGroup | main.go:149 | Four alphabet characters decode to their three bytes, and decoding continues on the rest with the same error status. |
| Base64.DecodeGroupThenRest | main.go:149 | An encoded group of three bytes followed by more text decodes to those bytes followed by the decoding of the rest. |
| Base64.DecodeLastGroupOfOne | main.go:149 | The padded encoding of a single byte decodes to that byte without error. |
| Base64.DecodeLastGroupOfTwo | main.go:149 | The padded encoding of two bytes decodes to those bytes without error. |
| Base64.DecodeGroupsEncode | main.go:149 | Decoding the groups of any encoding gives the original bytes, without error. |
| Base64.EncodeDecodeRoundTrip | main.go:149 | base64.StdEncoding.DecodeString undoes the padded standard encoding (section 4 of RFC 4648) for every byte sequence. |
| GoText.Itoa | main.go:125 | strconv.Itoa gives a minus sign exactly for negative numbers, then digits whose value is the magnitude, with no leading zero (only 0 itself is written "0"). |
| GoText.ItoaInjective | main.go:303 | Different integers give different decimal strings. |
| GoText.Atoi | main.go:260 | The result always lies within the int64 range. A run of digits, bare or after one '+' or '-', gives its signed value saturated at the int64 bounds, so "03" and "+3" both give 3. The empty string gives 0. |
| GoText.AtoiSyntaxError | main.go:260 | A character other than a digit after an optional sign and a digit run that fits 64 unsigned bits is a syntax error, and the ignored-error result is 0. |
| GoText.AtoiItoa | main.go:260 | Reading back the decimal string of any int64 gives the number. |
| GoText.RemoveAll | main.go:298 | strings.Replace with "" removes every occurrence of the character and keeps every other character. The length drops by the number of occurrences. |
| GoText.RemoveAllConcat | main.go:298 | Removing the character from two texts laid end to end is removing it from each, so the characters kept stay in order. |
| GoText.Split | main.go:300 | strings.Split on one character gives one more part than there are separators. No part holds the separator, and joining the parts with it gives the input back. |
| GoText.SplitJoin | main.go:300 | Splitting undoes joining parts that do not contain the separator. |
| GoText.IndexOf | main.go:297 | The position of the first line break, which is where ReadString('\n') stops. |
| Render.ResponseOf | main.go:191-196 | An init reply that does not decode gives the zero response: no shares and an empty root token; a decoded reply is returned as it is. |
| Render.ParseKeyLinesOf | main.go:221-223 | Share lines without line breaks, numbered from the given index, are read back exactly, with the text that follows them left over, as long as that text does not start another share line. |
| Render.ParseRenderKeys | main.go:220-225 | When no share holds a line break, parsing the rendered text gives back every base64 share, in order, and the root token. So the "Unseal Key i: share" lines, the blank line and the "Initial Root Token: token" line lose nothing. |
| Orchestrator.ProbeNode | main.go:156-178 | A health probe is one GET of the node for the field. It prints an error line exactly when the reply does not decode. Its result is the field of the reply the node gives at that point of the run, and false for an undecodable reply. |
| Orchestrator.SubmitBatch | main.go:269-273 | A batch gives one "Use key" line and one submission per key, all to the node. The keys submitted are the batch's keys, in order and as a multiset. There are no probes, init calls or file writes. |
| Orchestrator.SubmitBatchLines | main.go:269-273 | The i-th key of a batch is announced by the line "Use key n: key", numbered on from the given index, right before it is submitted to the node. |
| Orchestrator.Verdict | main.go:276-280 | The "didn't unsealed" line is printed exactly when the final probe says sealed, and the "successful" line exactly when it does not. |
| Orchestrator.Conclude | main.go:269-280 | A batch is followed by exactly one Sealed probe, which comes after every submission. The verdict printed is the one that probe gives. |
| Orchestrator.BatchRound | main.go:262-281 | A bootstrap round: the node announcement, the threshold keys all sent to that node, exactly one Sealed probe after them, then the verdict. |
| Orchestrator.CheckedRound | main.go:309-330 | An interactive round: one Sealed probe first. A node reporting unsealed gets no key and the "already unsealed" line. A sealed node gets every key once, then exactly one more probe and its verdict. |
| Orchestrator.RoundsFollowAll | main.go:262-281 | The loop over the node map gives one round per node, in iteration order. Each round is exactly what one iteration does on its node, run after the rounds before it. |
| Orchestrator.RoundsProperties | main.go:258-282 | The rounds of either loop make no init call, write no file and never probe for Initialized. In the bootstrap, the keys submitted over all rounds are the threshold keys, once per node. |
| Orchestrator.EnumerationSize | main.go:232 | An iteration order visits exactly as many nodes as the map holds. |
| Orchestrator.ConfigLog | main.go:336-339 | readConfig prints an error line exactly when parsing failed, and makes no network call. |
| Orchestrator.Fetch | main.go:140-146 | A registry read is a GET of the URL with the token. It prints an error line exactly when the reply does not decode. |
| Orchestrator.Discover | main.go:229-230 | The key/value read comes first, and the catalog read is among the events. An error is printed exactly when either reply does not decode. The scheme and node map are the ones those replies give. |
| Orchestrator.DiscoverReads | main.go:229-230 | Discovery reads exactly two registry URLs, in order: the key/value entry, then the catalog. |
| Bootstrap.Announce | main.go:238-253 | After an init call: the decode error line exactly when the reply does not decode, and the rendered key text on standard output. The file is written once with the same text exactly when save is set. |
| Bootstrap.InitFirstNode | main.go:232-256 | The first node is probed once for Initialized. If it is initialised, there is no init call, no keys, and the "already initialized" line. Otherwise there is one init call with the configured shares and threshold, and the keys are the reply's base64 shares. The key text is printed, and saved exactly when save is set. |
| Bootstrap.SkippedStage | main.go:235-236 | The "already initialized" branch makes no call besides its probe and writes nothing. |
| Bootstrap.FreshStage | main.go:237-253 | The init branch makes one init call, prints the key text, and persists it exactly when save is set. |
| Bootstrap.Setup | main.go:227-230 | Before the node loop, the configuration is read and both registry reads happen. There is no store call and no file write. |
| Bootstrap.BootstrapRun | main.go:212-283 | The run counts as initialised exactly when the node map is not empty and the first node's Initialized probe says so. An initialised run does nothing after the init stage. Otherwise the unseal loop follows. |
| Bootstrap.UnsealAll | main.go:258-282 | With a threshold inside the shares, there is one round per node, and the keys submitted are keys[:threshold] once per node. With a threshold outside, the run prints the first node's announcement and panics with the slice error. Either way there is no init call, no file write and no Initialized probe. |
| Bootstrap.UnsealAllRounds | main.go:258-282 | With a threshold inside the shares, every node in iteration order gets a bootstrap round with keys[:threshold], run after the rounds before it. |
| BootstrapProperties.BootstrapInitsAtMostOnce | main.go:232-256 | A run makes at most one init call, to the first node, and only when that node is not initialised. That node is the only one probed for Initialized, and only once. |
| BootstrapProperties.BootstrapSubmissions | main.go:258-274 | No key is submitted when the store was already initialised or the threshold falls outside the shares. Otherwise the first threshold shares are submitted once per node of the map. |
| BootstrapProperties.BootstrapPersists | main.go:248-253 | The key file is written exactly once with the printed key text when an init call happened and save is set. Otherwise it is never written. |
| BootstrapProperties.BootstrapPrintsKeys | main.go:247-248 | Whenever an init call happened, the key text of its reply was printed. |
| BootstrapProperties.BootstrapSliceGuard | main.go:269 | A threshold outside the shares ends the run in the slice panic, with no key submitted. |
| BootstrapProperties.BootstrapSubmitsAfterInit | main.go:232-274 | Every key submission comes after the init stage, and so after the key text is printed. |
| Unseal.KeysFromInput | main.go:296-301 | Input without a line break gives no key. Otherwise, joining the keys with spaces gives the text before the first line break. No key holds a space, and there is one key more than there are spaces. |
| Unseal.KeysFromLine | main.go:296-301 | At least one key, none holding a space or a line break, typed on one line separated by single spaces, is read back exactly, whatever follows the line. |
| Unseal.CountMatchesMeansThreshold | main.go:303 | A passing count check means Atoi of the threshold is the key count, and only that count passes. |
| Unseal.NonCanonicalThresholdRejected | main.go:303 | A threshold with a leading zero, a sign or a leading space fails the check for every key count. |
| Unseal.UnsealCluster | main.go:285-332 | A key count that differs from the threshold ends the run in the count panic, before any registry or store call and with no round. A matching count reads the registry, then loops over the nodes. |
| Unseal.Refuse | main.go:303-305 | The count panic comes after the configuration is read, with no network event, no init call and no file write. |
| Unseal.RefusalMessage | main.go:303-305 | A refused key count ends the run in the panic "The number of 'unseal key' should be equal <threshold>, try again." |
| Unseal.Sweep | main.go:309-331 | There is one round per node of the iteration order. No round makes an init call or writes the key file. |
| Unseal.SweepRounds | main.go:309-331 | Each node in iteration order gets an interactive round with every key read, run after the rounds before it. |
| Unseal.UnsealVisitsEveryNode | main.go:309-331 | Once the count check passes, there is one round per node of the map. Each node is probed for Sealed. A node reporting unsealed gets no key. A sealed node gets every key once, then exactly one more probe, whose answer decides the verdict. |
| Unseal.UnsealQuiet | main.go:285-332 | The interactive unseal never makes an init call and never writes the key file. |
| Cli.Dispatch | main.go:360-378 | Bootstrap runs exactly when there is one argument, "bootstrap" or "b", and the token is set. Unseal runs exactly when the argument is "unseal" or "u" and the token is set. The token message appears exactly when a command is named but the token is empty. Usage appears in every other case. |
| Cli.Main | main.go:353-379 | A whole invocation makes at most one init call, and only the bootstrap makes one. Only the bootstrap writes the key file, and then it holds the key text rendered from the init reply. |
| Cli.ShortRunsPrint | main.go:355-378 | An invocation that runs no command outputs exactly the usage text, or exactly the token message, followed by a line break. |
| Cli.NetworkNeedsCommandAndToken | main.go:360-378 | Without a named command and a set token, an invocation prints one line and makes no network call. |

## Left out

- HTTP (`respHTTP`, main.go:86-105): request building, headers, status codes, and the nil dereference when
  a request fails. Every reply is an input that either decodes or does not.
- Partial JSON decoding: a reply that is well-formed but mistyped can fill some fields before the decoder
  fails. The model treats every reply as either fully decoded or undecodable, and undecodable gives the
  zero value.
- Goroutine interleaving and the wait group (main.go:199-210, 267-274, 316-323). Submissions appear in key
  order. What is proved is the set and multiset of submitted keys and their position before the re-probe.
- The request bodies of init and unseal (main.go:188, 206) are plain string interpolation and are not
  modelled. An init event carries the shares and threshold strings, and a submit event carries the key.
- `keys[:threshold]` with a capacity larger than the length: Go accepts a bound up to the slice's
  capacity. The model panics for any bound above the length, because the capacity the JSON decoder leaves
  is not visible.
- Decoded key/value bytes become characters with the same code, a Latin-1 view; UTF-8 decoding of the
  value is not modelled.
- The wording of library errors printed by `fmt.Println(err)` is not modelled. It is one `LoggedError`
  event.
- `gcfg` file parsing, `os.Getenv`, reading standard input, and the file mode of `ioutil.WriteFile`. Their
  results are inputs. A standard-input read error other than end of input behaves like end of input.
- `text/template` internals: only the text the template produces is modelled.
- URL syntax: URLs are the formatted strings. Nothing checks that they parse.
- main_test.go is not part of this model. It starts a live HTTP server and holds no decision logic.
- Orchestrator.RoundsProperties: in the interactive mode, the per-node facts are stated but not the total count of
  submitted keys, because that count depends on what each node reports.

=== FILE: base64.dfy ===
/** The standard base64 alphabet with padding (section 4 of RFC 4648), as
    Go's base64.StdEncoding implements it. Decoding is lenient the way Go's
    is: carriage returns and line feeds are skipped, the unused low bits of
    a padded group are not checked, and on malformed input the bytes of the
    groups decoded before the fault are still returned with an error flag. */
module Base64 {
  import GoText

  type Byte = b: int | 0 <= b < 256

  const Pad: char := '='

  predicate IsAlphabet(c: char) {
    'A' <= c <= 'Z' || 'a' <= c <= 'z' || '0' <= c <= '9' || c == '+' || c == '/'
  }

  /** The 6-bit value a character of the alphabet stands for. */
  function SextetOf(c: char): (v: nat)
    requires IsAlphabet(c)
    ensures v < 64
  {
    if 'A' <= c <= 'Z' then c as int - 65
    else if 'a' <= c <= 'z' then c as int - 97 + 26
    else if '0' <= c <= '9' then c as int - 48 + 52
    else if c == '+' then 62
    else 63
  }

  /** The character of the alphabet for a 6-bit value. */
  function CharOf(v: nat): (c: char)
    requires v < 64
    ensures IsAlphabet(c) && SextetOf(c) == v
  {
    if v < 26 then (65 + v) as char
    else if v < 52 then (97 + v - 26) as char
    else if v < 62 then (48 + v - 52) as char
    else if v == 62 then '+'
    else '/'
  }

  /** The three bytes a group of four sextets carries. */
  function FirstByte(v0: nat, v1: nat): Byte
    requires v0 < 64 && v1 < 64
  {
    v0 * 4 + v1 / 16
  }

  function SecondByte(v1: nat, v2: nat): Byte
    requires v1 < 64 && v2 < 64
  {
    (v1 % 16) * 16 + v2 / 4
  }

  function ThirdByte(v2: nat, v3: nat): Byte
    requires v2 < 64 && v3 < 64
  {
    (v2 % 4) * 64 + v3
  }

  predicate IsEncodingChar(c: char) {
    IsAlphabet(c) || c == Pad
  }

  /** Padded standard encoding: each three bytes become four characters, a
      final one or two bytes become a group ending in "==" or "=". */
  function Encode(bs: seq<Byte>): (s: string)
    ensures |s| == 4 * ((|bs| + 2) / 3)
    ensures forall i :: 0 <= i < |s| ==> IsEncodingChar(s[i])
    decreases |bs|
  {
    if |bs| == 0 then []
    else if |bs| == 1 then
      [CharOf(bs[0] / 4), CharOf((bs[0] % 4) * 16), Pad, Pad]
    else if |bs| == 2 then
      [CharOf(bs[0] / 4), CharOf((bs[0] % 4) * 16 + bs[1] / 16), CharOf((bs[1] % 16) * 4), Pad]
    else
      EncodeGroup(bs[0], bs[1], bs[2]) + Encode(bs[3..])
  }

  /** The four characters of three whole bytes. */
  function EncodeGroup(a: Byte, b: Byte, c: Byte): (q: string)
    ensures |q| == 4 && IsAlphabet(q[0]) && IsAlphabet(q[1]) && IsAlphabet(q[2]) && IsAlphabet(q[3])
  {
    [CharOf(a / 4), CharOf((a % 4) * 16 + b / 16), CharOf((b % 16) * 4 + c / 64), CharOf(c % 64)]
  }

  /** The bytes decoded and whether Go reports no error. */
  datatype Decoded = Decoded(bytes: seq<Byte>, ok: bool)

  /** Go's group-by-group decoding of a text already free of line breaks.
      A group that is cut short, holds a foreign character, or pads in the
      first two places contributes nothing and stops decoding with an error;
      a padded group ends decoding, with an error if anything follows it. */
  function DecodeGroups(t: string): (r: Decoded)
    ensures r.ok ==> |t| % 4 == 0
    ensures r.ok ==> forall i :: 0 <= i < |t| ==> IsEncodingChar(t[i])
    ensures 4 * |r.bytes| <= 3 * |t|
    decreases |t|
  {
    if |t| == 0 then Decoded([], true)
    else if |t| < 3 || !IsAlphabet(t[0]) || !IsAlphabet(t[1]) then Decoded([], false)
    else if t[2] == Pad then
      if |t| == 3 || t[3] != Pad then Decoded([], false)
      else Decoded([FirstByte(SextetOf(t[0]), SextetOf(t[1]))], |t| == 4)
    else if !IsAlphabet(t[2]) || |t| == 3 then Decoded([], false)
    else if t[3] == Pad then
      Decoded([FirstByte(SextetOf(t[0]), SextetOf(t[1])), SecondByte(SextetOf(t[1]), SextetOf(t[2]))],
              |t| == 4)
    else if !IsAlphabet(t[3]) then Decoded([], false)
    else
      var rest := DecodeGroups(t[4..]);
      assert forall i :: 4 <= i < |t| ==> t[i] == t[4..][i - 4];
      Decoded([FirstByte(SextetOf(t[0]), SextetOf(t[1])),
               SecondByte(SextetOf(t[1]), SextetOf(t[2])),
               ThirdByte(SextetOf(t[2]), SextetOf(t[3]))] + rest.bytes,
              rest.ok)
  }

  /** base64.StdEncoding.DecodeString: line breaks are skipped, the rest is
      decoded group by group. */
  function DecodeString(s: string): (r: Decoded)
    ensures r.ok ==> forall i :: 0 <= i < |s| ==> IsEncodingChar(s[i]) || s[i] == '\n' || s[i] == '\r'
  {
    var t := GoText.RemoveAll(GoText.RemoveAll(s, '\n'), '\r');
    var r := DecodeGroups(t);
    assert r.ok ==> forall i :: 0 <= i < |s| ==> IsEncodingChar(s[i]) || s[i] == '\n' || s[i] == '\r' by {
      if r.ok {
        forall i | 0 <= i < |s|
          ensures IsEncodingChar(s[i]) || s[i] == '\n' || s[i] == '\r'
        {
          var c := s[i];
          assert c in s;
          if c != '\n' && c != '\r' {
            assert c in GoText.RemoveAll(s, '\n');
            assert c in t;
          }
        }
      }
    }
    r
  }

  /** A line feed anywhere in the text changes nothing: it is skipped. */
  lemma DecodeStringSkipsLineFeed(a: string, b: string)
    ensures DecodeString(a + "\n" + b) == DecodeString(a + b)
  {
    DropSkipped(a, b, '\n');
    assert GoText.RemoveAll(a + "\n" + b, '\n') == GoText.RemoveAll(a + b, '\n');
  }

  /** A carriage return anywhere in the text changes nothing: it is
      skipped. */
  lemma DecodeStringSkipsCarriageReturn(a: string, b: string)
    ensures DecodeString(a + "\r" + b) == DecodeString(a + b)
  {
    var a1, b1 := GoText.RemoveAll(a, '\n'), GoText.RemoveAll(b, '\n');
    KeepOther(a, b, '\r', '\n');
    DropSkipped(a1, b1, '\r');
    GoText.RemoveAllConcat(a, b, '\n');
    assert GoText.RemoveAll(GoText.RemoveAll(a + "\r" + b, '\n'), '\r')
        == GoText.RemoveAll(GoText.RemoveAll(a + b, '\n'), '\r');
  }

  /** Removing c drops a c between two texts. */
  lemma DropSkipped(a: string, b: string, c: char)
    ensures GoText.RemoveAll(a + [c] + b, c) == GoText.RemoveAll(a + b, c)
  {
    GoText.RemoveAllConcat(a + [c], b, c);
    GoText.RemoveAllConcat(a, [c], c);
    GoText.RemoveAllConcat(a, b, c);
    assert [c][1..] == [];
  }

  /** Removing c keeps a character other than c between two texts. */
  lemma KeepOther(a: string, b: string, x: char, c: char)
    requires x != c
    ensures GoText.RemoveAll(a + [x] + b, c) == GoText.RemoveAll(a, c) + [x] + GoText.RemoveAll(b, c)
  {
    GoText.RemoveAllConcat(a + [x], b, c);
    GoText.RemoveAllConcat(a, [x], c);
    assert [x][1..] == [];
  }

  lemma GroupRoundTrip(a: Byte, b: Byte, c: Byte)
    ensures FirstByte(a / 4, (a % 4) * 16 + b / 16) == a
    ensures SecondByte((a % 4) * 16 + b / 16, (b % 16) * 4 + c / 64) == b
    ensures ThirdByte((b % 16) * 4 + c / 64, c % 64) == c
  {
    var v1 := (a % 4) * 16 + b / 16;
    assert v1 / 16 == a % 4 && v1 % 16 == b / 16;
    var v2 := (b % 16) * 4 + c / 64;
    assert v2 / 4 == b % 16 && v2 % 4 == c / 64;
  }

  /** Decoding four alphabet characters yields their three bytes followed
      by whatever the rest of the text decodes to. */
  lemma DecodeFullGroup(t: string)
    requires |t| >= 4 && IsAlphabet(t[0]) && IsAlphabet(t[1]) && IsAlphabet(t[2]) && IsAlphabet(t[3])
    ensures DecodeGroups(t).ok == DecodeGroups(t[4..]).ok
    ensures DecodeGroups(t).bytes
         == [FirstByte(SextetOf(t[0]), SextetOf(t[1])),
             SecondByte(SextetOf(t[1]), SextetOf(t[2])),
             ThirdByte(SextetOf(t[2]), SextetOf(t[3]))] + DecodeGroups(t[4..]).bytes
  {
  }

  /** A whole group decodes to its three bytes, then decoding carries on. */
  lemma DecodeGroupThenRest(a: Byte, b: Byte, c: Byte, rest: string)
    ensures DecodeGroups(EncodeGroup(a, b, c) + rest)
         == Decoded([a, b, c] + DecodeGroups(rest).bytes, DecodeGroups(rest).ok)
  {
    var q := EncodeGroup(a, b, c);
    var t := q + rest;
    assert t[4..] == rest;
    assert t[0] == q[0] && t[1] == q[1] && t[2] == q[2] && t[3] == q[3];
    DecodeFullGroup(t);
    EncodedGroupBytes(a, b, c);
  }

  /** The bytes read back from the four characters of a whole group. */
  lemma EncodedGroupBytes(a: Byte, b: Byte, c: Byte)
    ensures var q := EncodeGroup(a, b, c);
            FirstByte(SextetOf(q[0]), SextetOf(q[1])) == a
            && SecondByte(SextetOf(q[1]), SextetOf(q[2])) == b
            && ThirdByte(SextetOf(q[2]), SextetOf(q[3])) == c
  {
    GroupRoundTrip(a, b, c);
  }

  lemma DecodeLastGroupOfOne(a: Byte)
    ensures DecodeGroups(Encode([a])) == Decoded([a], true)
  {
    var t := Encode([a]);
    assert t == [CharOf(a / 4), CharOf((a % 4) * 16), Pad, Pad];
    GroupRoundTrip(a, 0, 0);
    assert FirstByte(SextetOf(t[0]), SextetOf(t[1])) == a;
  }

  lemma DecodeLastGroupOfTwo(a: Byte, b: Byte)
    ensures DecodeGroups(Encode([a, b])) == Decoded([a, b], true)
  {
    var t := Encode([a, b]);
    assert t == [CharOf(a / 4), CharOf((a % 4) * 16 + b / 16), CharOf((b % 16) * 4), Pad];
    GroupRoundTrip(a, b, 0);
    assert FirstByte(SextetOf(t[0]), SextetOf(t[1])) == a;
    assert SecondByte(SextetOf(t[1]), SextetOf(t[2])) == b;
  }

  /** Decoding the groups of an encoding gives the bytes back, without error. */
  lemma {:induction false} DecodeGroupsEncode(bs: seq<Byte>)
    ensures DecodeGroups(Encode(bs)) == Decoded(bs, true)
    decreases |bs|
  {
    if |bs| == 0 {
    } else if |bs| == 1 {
      DecodeLastGroupOfOne(bs[0]);
      assert bs == [bs[0]];
    } else if |bs| == 2 {
      DecodeLastGroupOfTwo(bs[0], bs[1]);
      assert bs == [bs[0], bs[1]];
    } else {
      DecodeGroupsEncode(bs[3..]);
      DecodeGroupsStep(bs);
    }
  }

  /** Three whole bytes decode back, then the encoding of the rest. */
  lemma DecodeGroupsStep(bs: seq<Byte>)
    requires |bs| >= 3
    requires DecodeGroups(Encode(bs[3..])) == Decoded(bs[3..], true)
    ensures DecodeGroups(Encode(bs)) == Decoded(bs, true)
  {
    var a, b, c := bs[0], bs[1], bs[2];
    assert Encode(bs) == EncodeGroup(a, b, c) + Encode(bs[3..]);
    DecodeGroupThenRest(a, b, c, Encode(bs[3..]));
    FirstThree(bs);
  }

  /** A sequence of at least three elements is its first three, then the
      rest. */
  lemma FirstThree<T>(s: seq<T>)
    requires |s| >= 3
    ensures s == [s[0], s[1], s[2]] + s[3..]
  {
  }

  /** Round trip: DecodeString undoes Encode (section 4 of RFC 4648). */
  lemma EncodeDecodeRoundTrip(bs: seq<Byte>)
    ensures DecodeString(Encode(bs)) == Decoded(bs, true)
  {
    var s := Encode(bs);
    assert '\n' !in s && '\r' !in s;
    GoText.RemoveAllAbsent(s, '\n');
    GoText.RemoveAllAbsent(s, '\r');
    DecodeGroupsEncode(bs);
  }
}

=== FILE: bootstrap.dfy ===
/** vaultBootstrap: read the configuration and the registry, initialise the
    store through the first node of the node map unless it already is, print
    (and optionally persist) the keys, then unseal every node with the first
    threshold keys. */
module Bootstrap {
  import opened Events
  import opened Orchestrator
  import GoText
  import Config
  import Registry
  import Render

  /** The file the key text is persisted to when [init] save is set. */
  const KeysFile: string := "vault-keys"

  /** The first loop's single iteration: whether the store was already
      initialised, and the base64 shares the init reply carried. */
  datatype InitStage = InitStage(events: seq<Event>, initialized: bool, keys: seq<string>)

  /** The events after an init call: the decoding error line, the key text
      on standard output, and the same text persisted when save is set. */
  function Announce(reply: Render.InitReply, save: bool): (t: seq<Event>)
    ensures forall i :: 0 <= i < |t| ==> t[i].Say? || t[i].Persist?
    ensures Say(KeysRendered(Render.RenderKeys(Render.ResponseOf(reply)))) in t
    ensures Persists(t) == if save then [Persist(KeysFile, Render.RenderKeys(Render.ResponseOf(reply)))] else []
    ensures Say(LoggedError) in t <==> reply.InitUndecodable?
    ensures Submitted(t) == [] && Probes(t) == [] && Inits(t) == []
  {
    Announcement(reply.InitUndecodable?, Render.RenderKeys(Render.ResponseOf(reply)), save)
  }

  /** The announcement of a key text, after a reply that decoded or not. */
  function Announcement(undecodable: bool, text: string, save: bool): (t: seq<Event>)
    ensures forall i :: 0 <= i < |t| ==> t[i].Say? || t[i].Persist?
    ensures Say(KeysRendered(text)) in t
    ensures Persists(t) == if save then [Persist(KeysFile, text)] else []
    ensures Say(LoggedError) in t <==> undecodable
    ensures Submitted(t) == [] && Probes(t) == [] && Inits(t) == []
  {
    var logged := if undecodable then [Say(LoggedError)] else [];
    var written := if save then [Persist(KeysFile, text)] else [];
    var t := logged + [Say(KeysRendered(text))] + written;
    AnnounceCollects(logged, text, written);
    assert Persists(written) == if save then [Persist(KeysFile, text)] else [] by {
      Single(Persist(KeysFile, text));
    }
    assert t[|logged|] == Say(KeysRendered(text));
    forall i | 0 <= i < |t|
      ensures t[i].Say? || t[i].Persist?
      ensures t[i] == Say(LoggedError) ==> undecodable
    {
      if i < |logged| {
        assert t[i] == logged[i];
      } else if i > |logged| {
        assert t[i] == written[i - |logged| - 1];
      }
    }
    assert undecodable ==> t[0] == Say(LoggedError);
    t
  }

  lemma AnnounceCollects(logged: seq<Event>, text: string, written: seq<Event>)
    requires forall i :: 0 <= i < |logged| ==> logged[i].Say?
    requires forall i :: 0 <= i < |written| ==> written[i].Persist?
    ensures var t := logged + [Say(KeysRendered(text))] + written;
      Submitted(t) == [] && Probes(t) == [] && Inits(t) == [] && Persists(t) == Persists(written)
  {
    var said := logged + [Say(KeysRendered(text))];
    assert forall i :: 0 <= i < |said| ==> said[i].Say? by {
      assert forall i :: 0 <= i < |logged| ==> said[i] == logged[i];
    }
    SayOnly(said);
    CollectorsEmpty(written);
    Concat(said, written);
  }

  /** The first iteration of the loop over the node map, on the node at
      url: probe Initialized; if set, say so; otherwise initialise, print
      the shares and root token, and persist them when save is set. */
  function InitFirstNode(before: seq<Event>, c: Config.Config, url: string, reply: Render.InitReply,
                         health: HealthOracle): (s: InitStage)
    ensures Submitted(s.events) == [] && Probes(s.events) == [Probe(url, Registry.InitializedField)]
    ensures ProbedFor(s.events, Registry.InitializedField) == [url]
    ensures ProbedFor(s.events, Registry.SealedField) == []
    ensures s.initialized == Registry.HealthFlag(Registry.InitializedField, health(before, url))
    ensures s.initialized ==> Inits(s.events) == [] && s.keys == [] && Say(AlreadyInitialized) in s.events
    ensures !s.initialized ==> Inits(s.events) == [Init(url, c.init.shares, c.init.threshold)]
    ensures !s.initialized ==> s.keys == Render.ResponseOf(reply).keysBase64
    ensures !s.initialized ==> Say(KeysRendered(Render.RenderKeys(Render.ResponseOf(reply)))) in s.events
    ensures Persists(s.events)
         == if !s.initialized && c.init.save then [Persist(KeysFile, Render.RenderKeys(Render.ResponseOf(reply)))] else []
  {
    var p := ProbeNode(before, url, Registry.InitializedField, health);
    if p.flag then SkippedStage(p.events, url) else FreshStage(p.events, c, url, reply)
  }

  /** The stage when the node reports itself initialised. */
  function SkippedStage(q: seq<Event>, url: string): (s: InitStage)
    requires ProbeShape(q, url, Registry.InitializedField)
    ensures s.initialized && s.keys == [] && Say(AlreadyInitialized) in s.events
    ensures Submitted(s.events) == [] && Inits(s.events) == [] && Persists(s.events) == []
    ensures Probes(s.events) == [Probe(url, Registry.InitializedField)]
    ensures ProbedFor(s.events, Registry.InitializedField) == [url]
    ensures ProbedFor(s.events, Registry.SealedField) == []
  {
    SkipInit(q, url);
    InitStage(q + [Say(AlreadyInitialized)], true, [])
  }

  /** The stage when the node is not initialised: init, then announce. */
  function FreshStage(q: seq<Event>, c: Config.Config, url: string, reply: Render.InitReply): (s: InitStage)
    requires ProbeShape(q, url, Registry.InitializedField)
    ensures !s.initialized && s.keys == Render.ResponseOf(reply).keysBase64
    ensures Submitted(s.events) == [] && Inits(s.events) == [Init(url, c.init.shares, c.init.threshold)]
    ensures Probes(s.events) == [Probe(url, Registry.InitializedField)]
    ensures ProbedFor(s.events, Registry.InitializedField) == [url]
    ensures ProbedFor(s.events, Registry.SealedField) == []
    ensures Say(KeysRendered(Render.RenderKeys(Render.ResponseOf(reply)))) in s.events
    ensures Persists(s.events) == if c.init.save then [Persist(KeysFile, Render.RenderKeys(Render.ResponseOf(reply)))] else []
  {
    var call := Init(url, c.init.shares, c.init.threshold);
    var announced := Announce(reply, c.init.save);
    ProbeFields(q, url, Registry.InitializedField);
    FreshEvents(q, call, announced, url, Say(KeysRendered(Render.RenderKeys(Render.ResponseOf(reply)))));
    InitStage(q + [call] + announced, false, Render.ResponseOf(reply).keysBase64)
  }

  /** The collections of a probe, an init call, and an announcement. */
  lemma FreshEvents(q: seq<Event>, e: Event, a: seq<Event>, url: string, rendered: Event)
    requires e.Init?
    requires Submitted(q) == [] && Inits(q) == [] && Persists(q) == []
    requires Probes(q) == [Probe(url, Registry.InitializedField)]
    requires ProbedFor(q, Registry.InitializedField) == [url] && ProbedFor(q, Registry.SealedField) == []
    requires Submitted(a) == [] && Inits(a) == [] && Probes(a) == [] && rendered in a
    ensures Submitted(q + [e] + a) == [] && Inits(q + [e] + a) == [e]
    ensures Probes(q + [e] + a) == [Probe(url, Registry.InitializedField)]
    ensures ProbedFor(q + [e] + a, Registry.InitializedField) == [url]
    ensures ProbedFor(q + [e] + a, Registry.SealedField) == []
    ensures Persists(q + [e] + a) == Persists(a)
    ensures rendered in q + [e] + a
  {
    NoProbesFor(a, Registry.InitializedField);
    NoProbesFor(a, Registry.SealedField);
    InitBetween(q, e, a, Registry.InitializedField);
    InitBetween(q, e, a, Registry.SealedField);
    assert (q + [e] + a)[|q| + 1..] == a;
  }

  lemma SkipInit(q: seq<Event>, url: string)
    requires ProbeShape(q, url, Registry.InitializedField)
    ensures Submitted(q + [Say(AlreadyInitialized)]) == [] && Inits(q + [Say(AlreadyInitialized)]) == []
    ensures Probes(q + [Say(AlreadyInitialized)]) == [Probe(url, Registry.InitializedField)]
    ensures ProbedFor(q + [Say(AlreadyInitialized)], Registry.InitializedField) == [url]
    ensures ProbedFor(q + [Say(AlreadyInitialized)], Registry.SealedField) == []
    ensures Persists(q + [Say(AlreadyInitialized)]) == []
  {
    ProbeFields(q, url, Registry.InitializedField);
    SayOnly([Say(AlreadyInitialized)]);
    Concat(q, [Say(AlreadyInitialized)]);
    NoProbesFor([Say(AlreadyInitialized)], Registry.InitializedField);
    NoProbesFor([Say(AlreadyInitialized)], Registry.SealedField);
    ConcatProbedFor(q, [Say(AlreadyInitialized)], Registry.InitializedField);
    ConcatProbedFor(q, [Say(AlreadyInitialized)], Registry.SealedField);
  }

  /** The collections of a trace with one init call between two parts. */
  lemma InitBetween(q: seq<Event>, e: Event, a: seq<Event>, field: string)
    requires e.Init?
    ensures Submitted(q + [e] + a) == Submitted(q) + Submitted(a)
    ensures Inits(q + [e] + a) == Inits(q) + [e] + Inits(a)
    ensures Probes(q + [e] + a) == Probes(q) + Probes(a)
    ensures Persists(q + [e] + a) == Persists(q) + Persists(a)
    ensures ProbedFor(q + [e] + a, field) == ProbedFor(q, field) + ProbedFor(a, field)
  {
    Single(e);
    ConcatSubmitted(q, [e]);
    ConcatSubmitted(q + [e], a);
    ConcatInits(q, [e]);
    ConcatInits(q + [e], a);
    ConcatProbes(q, [e]);
    ConcatProbes(q + [e], a);
    ConcatPersists(q, [e]);
    ConcatPersists(q + [e], a);
    ConcatProbedFor(q, [e], field);
    ConcatProbedFor(q + [e], a, field);
  }

  // -------------------------------------------------------------- the flow

  /** A bootstrap run in its four parts: reading the configuration and the
      registry, the init stage, one round per node, and the panic of an
      out-of-range key slice. */
  datatype Run = Run(setup: seq<Event>, init: InitStage, rounds: seq<seq<Event>>, tail: seq<Event>)

  function Trace(run: Run): seq<Event> {
    run.setup + run.init.events + Flatten(run.rounds) + run.tail
  }

  /** keys[:threshold] stays within the shares the init reply carried. */
  predicate InSlice(threshold: int, keys: seq<string>) {
    0 <= threshold <= |keys|
  }

  /** The events before the init stage. */
  function Setup(token: string, file: Config.ConfigFile, w: World): (t: seq<Event>)
    ensures Submitted(t) == [] && Probes(t) == [] && Inits(t) == [] && Persists(t) == []
    ensures RegistryGet(KVUrl(Config.ReadConfig(file)), token) in t
    ensures RegistryGet(CatalogUrl(Config.ReadConfig(file)), token) in t
  {
    var log := ConfigLog(file);
    var d := Discover(token, Config.ReadConfig(file), w);
    SayOnly(log);
    Concat(log, d.events);
    log + d.events
  }

  /** The node the first loop inspects, when the node map has one. */
  function InitNode(w: World): (url: string)
    requires Consistent(w) && |w.probeOrder| > 0
  {
    NodeUrl(Registry.KVValue(w.kv), Registry.NodeMap(w.catalog)[w.probeOrder[0]])
  }

  /** An announcement and a panic touch neither the registry nor the store. */
  lemma PanicQuiet(say: Event, abort: Event)
    requires say.Say? && abort.Abort?
    ensures Submitted([say, abort]) == [] && Inits([say, abort]) == [] && Persists([say, abort]) == []
    ensures ProbedFor([say, abort], Registry.InitializedField) == []
  {
    Single(say);
    Single(abort);
    Concat([say], [abort]);
    assert [say, abort] == [say] + [abort];
    NoProbesFor([say, abort], Registry.InitializedField);
  }

  /** vaultBootstrap with the token from the environment, the parsed
      configuration file, and the registry and store as w. */
  function BootstrapRun(token: string, file: Config.ConfigFile, w: World): (run: Run)
    requires Consistent(w)
    ensures run.setup == Setup(token, file, w)
    ensures |w.probeOrder| == 0 ==> run.init == InitStage([], false, []) && run.rounds == [] && run.tail == []
    ensures |w.probeOrder| > 0 ==>
              run.init == InitFirstNode(run.setup, Config.ReadConfig(file), InitNode(w), w.initReply, w.health)
    ensures run.init.initialized
            <==> |w.probeOrder| > 0
                 && Registry.HealthFlag(Registry.InitializedField, w.health(run.setup, InitNode(w)))
    ensures run.init.initialized ==> run.rounds == [] && run.tail == []
    ensures !run.init.initialized ==>
              Unsealing(run.rounds, run.tail)
              == UnsealAll(run.setup + run.init.events, run.init.keys, GoText.Atoi(Config.ReadConfig(file).init.threshold), w)
  {
    var c := Config.ReadConfig(file);
    var setup := Setup(token, file, w);
    var init := if |w.probeOrder| == 0 then InitStage([], false, [])
                else InitFirstNode(setup, c, InitNode(w), w.initReply, w.health);
    EnumerationSize(Registry.NodeMap(w.catalog), w.probeOrder);
    EnumerationSize(Registry.NodeMap(w.catalog), w.unsealOrder);
    if init.initialized then
      assert Flatten([]) == [];
      Run(setup, init, [], [])
    else
      var u := UnsealAll(setup + init.events, init.keys, GoText.Atoi(c.init.threshold), w);
      Run(setup, init, u.rounds, u.tail)
  }

  /** The second loop of the bootstrap: one round per node with the first
      threshold keys, or the panic of keys[:threshold] when threshold falls
      outside the keys, raised on the first node after its announcement. */
  datatype Unsealing = Unsealing(rounds: seq<seq<Event>>, tail: seq<Event>)

  function UnsealAll(before: seq<Event>, keys: seq<string>, threshold: int, w: World): (u: Unsealing)
    requires Consistent(w)
    ensures |w.unsealOrder| == 0 ==> u.rounds == [] && u.tail == []
    ensures |w.unsealOrder| > 0 && InSlice(threshold, keys) ==>
              u.tail == [] && |u.rounds| == |w.unsealOrder|
              && Submitted(Flatten(u.rounds)) == Repeat(keys[..threshold], |w.unsealOrder|)
    ensures |w.unsealOrder| > 0 && !InSlice(threshold, keys) ==>
              u.rounds == []
              && u.tail == [Say(UnsealingNode(w.unsealOrder[0], UnsealNode(w, 0))), Abort(SliceOutOfRange(threshold, |keys|))]
    ensures Inits(Flatten(u.rounds)) == [] && Persists(Flatten(u.rounds)) == []
    ensures ProbedFor(Flatten(u.rounds), Registry.InitializedField) == []
    ensures Submitted(u.tail) == [] && Inits(u.tail) == [] && Persists(u.tail) == []
    ensures ProbedFor(u.tail, Registry.InitializedField) == []
  {
    if |w.unsealOrder| == 0 then
      assert Flatten([]) == [];
      Unsealing([], [])
    else if !InSlice(threshold, keys) then
      var tail := [Say(UnsealingNode(w.unsealOrder[0], UnsealNode(w, 0))), Abort(SliceOutOfRange(threshold, |keys|))];
      PanicQuiet(tail[0], tail[1]);
      assert tail == [tail[0], tail[1]];
      assert Flatten([]) == [];
      Unsealing([], tail)
    else
      var rounds := Rounds(BootstrapMode, before, Registry.KVValue(w.kv), Registry.NodeMap(w.catalog),
                           w.unsealOrder, keys[..threshold], w.health);
      RoundsProperties(BootstrapMode, before, Registry.KVValue(w.kv), Registry.NodeMap(w.catalog),
                       w.unsealOrder, keys[..threshold], w.health);
      Unsealing(rounds, [])
  }

  /** With a threshold inside the shares, each node in iteration order gets
      a bootstrap round with keys[:threshold], run after the rounds before
      it. */
  lemma UnsealAllRounds(before: seq<Event>, keys: seq<string>, threshold: int, w: World)
    requires Consistent(w)
    requires |w.unsealOrder| > 0 && InSlice(threshold, keys)
    ensures var u := UnsealAll(before, keys, threshold, w);
            forall i :: 0 <= i < |w.unsealOrder| ==>
              IsRound(BootstrapMode, before + Flatten(u.rounds[..i]), u.rounds[i],
                      w.unsealOrder[i], UnsealNode(w, i), keys[..threshold], w.health)
  {
    RoundsFollowAll(BootstrapMode, before, Registry.KVValue(w.kv), Registry.NodeMap(w.catalog),
                    w.unsealOrder, keys[..threshold], w.health);
  }
}

module BootstrapProperties {
  import opened Events
  import opened Orchestrator
  import opened Bootstrap
  import GoText
  import Config
  import Registry
  import Render

  /** Each collection of a run's trace is the collections of its parts
      laid end to end. */
  lemma TraceParts(r: Run, field: string)
    ensures Submitted(Trace(r))
         == Submitted(r.setup) + Submitted(r.init.events) + Submitted(Flatten(r.rounds)) + Submitted(r.tail)
    ensures Inits(Trace(r)) == Inits(r.setup) + Inits(r.init.events) + Inits(Flatten(r.rounds)) + Inits(r.tail)
    ensures Persists(Trace(r))
         == Persists(r.setup) + Persists(r.init.events) + Persists(Flatten(r.rounds)) + Persists(r.tail)
    ensures ProbedFor(Trace(r), field)
         == ProbedFor(r.setup, field) + ProbedFor(r.init.events, field)
            + ProbedFor(Flatten(r.rounds), field) + ProbedFor(r.tail, field)
  {
    var a, b, c, d := r.setup, r.init.events, Flatten(r.rounds), r.tail;
    SubmittedParts(r);
    ConcatInits(a, b);
    ConcatInits(a + b, c);
    ConcatInits(a + b + c, d);
    ConcatPersists(a, b);
    ConcatPersists(a + b, c);
    ConcatPersists(a + b + c, d);
    ConcatProbedFor(a, b, field);
    ConcatProbedFor(a + b, c, field);
    ConcatProbedFor(a + b + c, d, field);
  }

  /** The keys a run submits, stage by stage. */
  lemma SubmittedParts(r: Run)
    ensures Submitted(Trace(r))
         == Submitted(r.setup) + Submitted(r.init.events) + Submitted(Flatten(r.rounds)) + Submitted(r.tail)
  {
    var a, b, c, d := r.setup, r.init.events, Flatten(r.rounds), r.tail;
    ConcatSubmitted(a, b);
    ConcatSubmitted(a + b, c);
    ConcatSubmitted(a + b + c, d);
  }

  /** The parts of a run that make no init call and write no file, and
      probe nothing for Initialized. */
  predicate QuietParts(r: Run) {
    Inits(r.setup) == [] && Persists(r.setup) == [] && ProbedFor(r.setup, Registry.InitializedField) == []
    && Inits(Flatten(r.rounds)) == [] && Persists(Flatten(r.rounds)) == []
    && ProbedFor(Flatten(r.rounds), Registry.InitializedField) == []
    && Inits(r.tail) == [] && Persists(r.tail) == [] && ProbedFor(r.tail, Registry.InitializedField) == []
  }

  /** In a run whose other parts are quiet, the init calls, the file writes
      and the Initialized probes are those of the init stage. */
  lemma QuietRun(r: Run)
    requires QuietParts(r)
    ensures Inits(Trace(r)) == Inits(r.init.events)
    ensures Persists(Trace(r)) == Persists(r.init.events)
    ensures ProbedFor(Trace(r), Registry.InitializedField) == ProbedFor(r.init.events, Registry.InitializedField)
  {
    TraceParts(r, Registry.InitializedField);
  }

  /** Every bootstrap run is quiet outside its init stage. */
  lemma BootstrapQuiet(token: string, file: Config.ConfigFile, w: World)
    requires Consistent(w)
    ensures QuietParts(BootstrapRun(token, file, w))
  {
    var run := BootstrapRun(token, file, w);
    NoProbesFor(run.setup, Registry.InitializedField);
    assert Flatten([]) == [];
    if !run.init.initialized {
      var u := UnsealAll(run.setup + run.init.events, run.init.keys,
                         GoText.Atoi(Config.ReadConfig(file).init.threshold), w);
      assert run.rounds == u.rounds && run.tail == u.tail;
    }
  }

  /** At most one init call per run, to the first node in iteration order,
      and only when that node reports itself not initialised; and that node
      is the only one ever probed for Initialized, once. */
  lemma BootstrapInitsAtMostOnce(token: string, file: Config.ConfigFile, w: World)
    requires Consistent(w)
    ensures var run := BootstrapRun(token, file, w);
            var c := Config.ReadConfig(file);
            Inits(Trace(run))
            == if |w.probeOrder| > 0 && !run.init.initialized
               then [Init(InitNode(w), c.init.shares, c.init.threshold)] else []
    ensures var run := BootstrapRun(token, file, w);
            ProbedFor(Trace(run), Registry.InitializedField) == if |w.probeOrder| > 0 then [InitNode(w)] else []
  {
    BootstrapQuiet(token, file, w);
    QuietRun(BootstrapRun(token, file, w));
  }

  /** The keys submitted over the whole run: none when the store was
      already initialised or the threshold falls outside the shares; the
      first threshold shares once per node otherwise. */
  lemma BootstrapSubmissions(token: string, file: Config.ConfigFile, w: World)
    requires Consistent(w)
    ensures var run := BootstrapRun(token, file, w);
            var threshold := GoText.Atoi(Config.ReadConfig(file).init.threshold);
            Submitted(Trace(run))
            == if !run.init.initialized && InSlice(threshold, run.init.keys)
               then Repeat(run.init.keys[..threshold], |Registry.NodeMap(w.catalog)|) else []
  {
    var run := BootstrapRun(token, file, w);
    var threshold := GoText.Atoi(Config.ReadConfig(file).init.threshold);
    var expected := if !run.init.initialized && InSlice(threshold, run.init.keys)
                    then Repeat(run.init.keys[..threshold], |Registry.NodeMap(w.catalog)|) else [];
    if run.init.initialized || |w.probeOrder| == 0 {
      assert Flatten([]) == [];
      RunSubmissions(run, []);
    } else {
      UnsealAllSubmits(run.setup + run.init.events, run.init.keys, threshold, w);
      RunSubmissions(run, expected);
    }
  }

  /** The second loop submits the first threshold keys once per node, or
      nothing when threshold falls outside the keys. */
  lemma UnsealAllSubmits(before: seq<Event>, keys: seq<string>, threshold: int, w: World)
    requires Consistent(w)
    ensures var u := UnsealAll(before, keys, threshold, w);
            Submitted(u.tail) == []
            && Submitted(Flatten(u.rounds))
               == if InSlice(threshold, keys) then Repeat(keys[..threshold], |Registry.NodeMap(w.catalog)|) else []
  {
    EnumerationSize(Registry.NodeMap(w.catalog), w.unsealOrder);
    if |w.unsealOrder| == 0 || !InSlice(threshold, keys) {
      assert Flatten([]) == [];
    }
  }

  /** A run whose setup, init stage and tail submit nothing submits the
      keys of its rounds. */
  lemma RunSubmissions(r: Run, expected: seq<string>)
    requires Submitted(r.setup) == [] && Submitted(r.init.events) == [] && Submitted(r.tail) == []
    requires Submitted(Flatten(r.rounds)) == expected
    ensures Submitted(Trace(r)) == expected
  {
    SubmittedParts(r);
  }

  /** An event of the init stage is an event of the run. */
  lemma InStage(r: Run, e: Event)
    requires e in r.init.events
    ensures e in Trace(r)
  {
    var i :| 0 <= i < |r.init.events| && r.init.events[i] == e;
    assert Trace(r)[|r.setup| + i] == e;
  }

  /** A run whose setup and init stage submit nothing submits only after
      its init stage. */
  lemma SubmitsAfterStage(r: Run)
    requires Submitted(r.setup) == [] && Submitted(r.init.events) == []
    ensures forall i :: 0 <= i < |Trace(r)| && Trace(r)[i].Submit? ==> |r.setup| + |r.init.events| <= i
  {
    var front := r.setup + r.init.events;
    ConcatSubmitted(r.setup, r.init.events);
    CollectorsEmpty(front);
    assert Trace(r) == front + (Flatten(r.rounds) + r.tail);
    assert forall i :: 0 <= i < |front| ==> Trace(r)[i] == front[i];
  }

  /** The key file holds exactly the text printed, and is written only when
      an init call happened and saving is configured. */
  lemma BootstrapPersists(token: string, file: Config.ConfigFile, w: World)
    requires Consistent(w)
    ensures var run := BootstrapRun(token, file, w);
            var text := Render.RenderKeys(Render.ResponseOf(w.initReply));
            Persists(Trace(run))
            == if |w.probeOrder| > 0 && !run.init.initialized && Config.ReadConfig(file).init.save
               then [Persist(KeysFile, text)] else []
  {
    BootstrapQuiet(token, file, w);
    QuietRun(BootstrapRun(token, file, w));
  }

  /** Whenever an init call happened, the key text was printed. */
  lemma BootstrapPrintsKeys(token: string, file: Config.ConfigFile, w: World)
    requires Consistent(w)
    ensures var run := BootstrapRun(token, file, w);
            |w.probeOrder| > 0 && !run.init.initialized ==>
              Say(KeysRendered(Render.RenderKeys(Render.ResponseOf(w.initReply)))) in Trace(run)
  {
    var run := BootstrapRun(token, file, w);
    if |w.probeOrder| > 0 && !run.init.initialized {
      InStage(run, Say(KeysRendered(Render.RenderKeys(Render.ResponseOf(w.initReply)))));
    }
  }

  /** A threshold outside the shares ends the run in the slice panic with
      no key submitted. */
  lemma BootstrapSliceGuard(token: string, file: Config.ConfigFile, w: World)
    requires Consistent(w)
    ensures var run := BootstrapRun(token, file, w);
            var threshold := GoText.Atoi(Config.ReadConfig(file).init.threshold);
            !run.init.initialized && |w.unsealOrder| > 0 && !InSlice(threshold, run.init.keys) ==>
              Submitted(Trace(run)) == []
              && |Trace(run)| > 0 && Trace(run)[|Trace(run)| - 1] == Abort(SliceOutOfRange(threshold, |run.init.keys|))
  {
    BootstrapSubmissions(token, file, w);
  }

  /** Every key submission comes after the init stage, so after the key
      text is printed. */
  lemma BootstrapSubmitsAfterInit(token: string, file: Config.ConfigFile, w: World)
    requires Consistent(w)
    ensures var run := BootstrapRun(token, file, w);
            forall i :: 0 <= i < |Trace(run)| && Trace(run)[i].Submit? ==> |run.setup| + |run.init.events| <= i
  {
    SubmitsAfterStage(BootstrapRun(token, file, w));
  }
}

=== FILE: cli.dfy ===
/** main: one argument selects the bootstrap or the interactive unseal,
    both of which need the registry token in the environment; anything
    else prints the usage text. */
module Cli {
  import opened Events
  import Orchestrator
  import Bootstrap
  import BootstrapProperties
  import Render
  import Unseal
  import Config

  datatype Command = BootstrapCommand | UnsealCommand | MissingTokenCommand | UsageCommand

  predicate NamesBootstrap(word: string) {
    word == "bootstrap" || word == "b"
  }

  predicate NamesUnseal(word: string) {
    word == "unseal" || word == "u"
  }

  /** The command main runs for the process arguments (the program name
      first) and the value of the token variable, "" when it is unset. */
  function Dispatch(args: seq<string>, token: string): (cmd: Command)
    ensures cmd == BootstrapCommand <==> |args| == 2 && NamesBootstrap(args[1]) && token != ""
    ensures cmd == UnsealCommand <==> |args| == 2 && NamesUnseal(args[1]) && token != ""
    ensures cmd == MissingTokenCommand
            <==> |args| == 2 && (NamesBootstrap(args[1]) || NamesUnseal(args[1])) && token == ""
    ensures cmd == UsageCommand <==> |args| != 2 || !(NamesBootstrap(args[1]) || NamesUnseal(args[1]))
  {
    if |args| == 2 then
      if NamesBootstrap(args[1]) then
        if token == "" then MissingTokenCommand else BootstrapCommand
      else if NamesUnseal(args[1]) then
        if token == "" then MissingTokenCommand else UnsealCommand
      else UsageCommand
    else UsageCommand
  }

  /** The events of a whole invocation: at most one init call, made only
      by the bootstrap; the key file written only by the bootstrap, once,
      with the key text of the init reply. */
  function Main(args: seq<string>, token: string, file: Config.ConfigFile, stdin: string,
                w: Orchestrator.World): (t: seq<Event>)
    requires Orchestrator.Consistent(w)
    ensures |Inits(t)| <= 1
    ensures Inits(t) != [] ==> Dispatch(args, token) == BootstrapCommand
    ensures Persists(t) != [] ==>
              Dispatch(args, token) == BootstrapCommand
              && Persists(t) == [Persist(Bootstrap.KeysFile, Render.RenderKeys(Render.ResponseOf(w.initReply)))]
  {
    match Dispatch(args, token)
    case UsageCommand =>
      Single(Say(Usage));
      [Say(Usage)]
    case MissingTokenCommand =>
      Single(Say(TokenMissing));
      [Say(TokenMissing)]
    case BootstrapCommand =>
      BootstrapProperties.BootstrapInitsAtMostOnce(token, file, w);
      BootstrapProperties.BootstrapPersists(token, file, w);
      Bootstrap.Trace(Bootstrap.BootstrapRun(token, file, w))
    case UnsealCommand =>
      Unseal.UnsealQuiet(token, file, stdin, w);
      Unseal.Trace(Unseal.UnsealCluster(token, file, stdin, w))
  }

  /** The usage text and the token message, each followed by a line break,
      are the whole output of an invocation that runs no command. */
  lemma ShortRunsPrint(args: seq<string>, token: string, file: Config.ConfigFile, stdin: string,
                       w: Orchestrator.World)
    requires Orchestrator.Consistent(w)
    ensures Dispatch(args, token) == UsageCommand ==>
              Stdout(Main(args, token, file, stdin, w))
              == HelpMessage + "\n"
    ensures Dispatch(args, token) == MissingTokenCommand ==>
              Stdout(Main(args, token, file, stdin, w)) == "* Variable '" + TokenVariable + "' is not set.\n"
  {
    if Dispatch(args, token) == UsageCommand {
      assert Main(args, token, file, stdin, w) == [Say(Usage)];
      StdoutOne(Usage);
    } else if Dispatch(args, token) == MissingTokenCommand {
      assert Main(args, token, file, stdin, w) == [Say(TokenMissing)];
      StdoutOne(TokenMissing);
    }
  }

  /** Nothing reaches the registry or the store unless one argument names
      a command and the token is set. */
  lemma NetworkNeedsCommandAndToken(args: seq<string>, token: string, file: Config.ConfigFile, stdin: string,
                                    w: Orchestrator.World)
    requires Orchestrator.Consistent(w)
    requires token == "" || |args| != 2 || !(NamesBootstrap(args[1]) || NamesUnseal(args[1]))
    ensures NetworkFree(Main(args, token, file, stdin, w))
    ensures |Main(args, token, file, stdin, w)| == 1
  {
  }
}

=== FILE: config.dfy ===
/** The tool's configuration file (vault-cli.conf) after parsing, and the
    defaulting readConfig applies to it. */
module Config {

  /** [vault]: the registry key path holding the store's URL scheme, and
      the store's service name in the registry catalog. */
  datatype VaultSection = VaultSection(scheme: string, name: string)

  /** [init]: whether to persist the key text, and the share count and
      threshold, kept as the strings the file holds. */
  datatype InitSection = InitSection(save: bool, shares: string, threshold: string)

  /** [consul]: the registry's address and URL scheme. */
  datatype ConsulSection = ConsulSection(addr: string, scheme: string)

  datatype Config = Config(vault: VaultSection, init: InitSection, consul: ConsulSection)

  /** What gcfg made of the file: the fields it filled in (zero values for
      the rest) and whether it reported an error, which readConfig prints
      and otherwise ignores. */
  datatype ConfigFile = ConfigFile(parsed: Config, failed: bool)

  const DefaultMarker: string := "default"
  const DefaultScheme: string := "http"
  const DefaultConsulAddr: string := "127.0.0.1:8500"

  /** A field readConfig rewrites still holds the marker. */
  predicate HasDefaults(c: Config) {
    c.vault.scheme == DefaultMarker || c.consul.scheme == DefaultMarker || c.consul.addr == DefaultMarker
  }

  /** Replace the marker in one field by its concrete value. */
  function Resolve(field: string, concrete: string): string {
    if field == DefaultMarker then concrete else field
  }

  /** readConfig's defaulting: vault.scheme and consul.scheme "default"
      become "http", consul.addr "default" becomes "127.0.0.1:8500"; every
      other field, and every field not equal to the marker, is kept. */
  function ApplyDefaults(c: Config): (r: Config)
    ensures !HasDefaults(r)
    ensures r.vault.name == c.vault.name && r.init == c.init
    ensures c.vault.scheme != DefaultMarker ==> r.vault.scheme == c.vault.scheme
    ensures c.consul.scheme != DefaultMarker ==> r.consul.scheme == c.consul.scheme
    ensures c.consul.addr != DefaultMarker ==> r.consul.addr == c.consul.addr
    ensures c.vault.scheme == DefaultMarker ==> r.vault.scheme == "http"
    ensures c.consul.scheme == DefaultMarker ==> r.consul.scheme == "http"
    ensures c.consul.addr == DefaultMarker ==> r.consul.addr == "127.0.0.1:8500"
  {
    Config(
      VaultSection(Resolve(c.vault.scheme, DefaultScheme), c.vault.name),
      c.init,
      ConsulSection(Resolve(c.consul.addr, DefaultConsulAddr), Resolve(c.consul.scheme, DefaultScheme)))
  }

  /** readConfig as a whole: the defaulted configuration, whether or not
      gcfg reported an error. */
  function ReadConfig(file: ConfigFile): (c: Config)
    ensures !HasDefaults(c)
    ensures c.init == file.parsed.init && c.vault.name == file.parsed.vault.name
    ensures c.vault.scheme == if file.parsed.vault.scheme == DefaultMarker then "http" else file.parsed.vault.scheme
    ensures c.consul.scheme == if file.parsed.consul.scheme == DefaultMarker then "http" else file.parsed.consul.scheme
    ensures c.consul.addr == if file.parsed.consul.addr == DefaultMarker then "127.0.0.1:8500" else file.parsed.consul.addr
  {
    ApplyDefaults(file.parsed)
  }

  /** Defaulting twice is defaulting once. */
  lemma ApplyDefaultsIdempotent(c: Config)
    ensures ApplyDefaults(ApplyDefaults(c)) == ApplyDefaults(c)
  {
  }

  /** Defaulting changes a configuration exactly when it holds the marker
      in one of the three rewritten fields. */
  lemma ApplyDefaultsFixedPoints(c: Config)
    ensures ApplyDefaults(c) == c <==> !HasDefaults(c)
  {
  }
}

=== FILE: events.dfy ===
/** The observable behaviour of one run of the tool, as a trace of events:
    registry reads, store calls (health probes, init, key submissions),
    lines printed, the key file written, and a panic. */
module Events {
  import GoText

  /** What the tool prints, by meaning. */
  datatype Note =
    | LoggedError                        // a transport or decoding error printed by fmt.Println(err)
    | AlreadyInitialized
    | KeysRendered(text: string)         // the key and root token text
    | UnsealingNode(name: string, url: string)
    | UsingKey(number: nat, key: string)
    | NodeUnsealed
    | NodeStillSealed
    | AlreadyUnsealed(name: string)
    | Usage
    | TokenMissing

  /** Why the run panics. */
  datatype Failure =
    | KeyCountMismatch(threshold: string)    // the interactive key count check
    | SliceOutOfRange(bound: int, length: nat)  // keys[:threshold] during bootstrap

  datatype Event =
    | RegistryGet(url: string, token: string)
    | Probe(node: string, field: string)     // GET <node>/v1/sys/health, read for one field
    | Init(node: string, shares: string, threshold: string)
    | Submit(node: string, key: string)      // POST <node>/v1/sys/unseal
    | Say(note: Note)
    | Persist(file: string, text: string)
    | Abort(failure: Failure)

  const HelpMessage: string :=
    "Usage: vault-cli <command>\n\nCommon commands:\n" +
    "* bootstrap\t Bootstrap Vault cluster\n" +
    "* unseal\t Unseal vault cluster"

  const TokenVariable: string := "CONSUL_HTTP_TOKEN"

  /** The exact text a note puts on standard output; an error printed by a
      library call has the library's own wording, which is not modelled. */
  function Line(note: Note): string
    requires !note.LoggedError?
  {
    match note
    case AlreadyInitialized => "* Vault is already initialized\n"
    case KeysRendered(text) => text
    case UnsealingNode(name, url) => "* Unseal node " + name + ": " + url + "\n\n"
    case UsingKey(number, key) => "Use key " + GoText.Itoa(number) + ": " + key + "\n"
    case NodeUnsealed => "\n* Node successful unsealed\n\n"
    case NodeStillSealed => "\n* Node didn't unsealed\n\n"
    case AlreadyUnsealed(name) => "* Node " + name + " already unsealed\n\n"
    case Usage => HelpMessage + "\n"
    case TokenMissing => "* Variable '" + TokenVariable + "' is not set.\n"
  }

  /** The panic message of a failure. */
  function PanicMessage(failure: Failure): string {
    match failure
    case KeyCountMismatch(threshold) =>
      "The number of 'unseal key' should be equal " + threshold + ", try again."
    case SliceOutOfRange(bound, length) =>
      if bound < 0 then "runtime error: slice bounds out of range [:" + GoText.Itoa(bound) + "]"
      else "runtime error: slice bounds out of range [:" + GoText.Itoa(bound) + "] with capacity " + GoText.Itoa(length)
  }

  /** The text t puts on standard output, leaving out the lines of library
      errors, whose wording is not modelled. */
  function Stdout(t: seq<Event>): string
    decreases |t|
  {
    if |t| == 0 then ""
    else (if t[0].Say? && !t[0].note.LoggedError? then Line(t[0].note) else "") + Stdout(t[1..])
  }

  /** A trace of one printed line outputs that line. */
  lemma StdoutOne(note: Note)
    requires !note.LoggedError?
    ensures Stdout([Say(note)]) == Line(note)
  {
    assert [Say(note)][1..] == [];
  }

  /** The message of the panic that ends t, or "" when t ends otherwise. */
  function PanicText(t: seq<Event>): string {
    if |t| > 0 && t[|t| - 1].Abort? then PanicMessage(t[|t| - 1].failure) else ""
  }

  /** Events that reach the registry or the store. */
  predicate IsNetwork(e: Event) {
    e.RegistryGet? || e.Probe? || e.Init? || e.Submit?
  }

  predicate NetworkFree(t: seq<Event>) {
    forall i :: 0 <= i < |t| ==> !IsNetwork(t[i])
  }

  /** The keys submitted in t, in trace order. */
  function Submitted(t: seq<Event>): seq<string>
    decreases |t|
  {
    if |t| == 0 then [] else (if t[0].Submit? then [t[0].key] else []) + Submitted(t[1..])
  }

  /** The health probes of t, in trace order. */
  function Probes(t: seq<Event>): seq<Event>
    decreases |t|
  {
    if |t| == 0 then [] else (if t[0].Probe? then [t[0]] else []) + Probes(t[1..])
  }

  /** The init calls of t, in trace order. */
  function Inits(t: seq<Event>): seq<Event>
    decreases |t|
  {
    if |t| == 0 then [] else (if t[0].Init? then [t[0]] else []) + Inits(t[1..])
  }

  /** The file writes of t, in trace order. */
  function Persists(t: seq<Event>): seq<Event>
    decreases |t|
  {
    if |t| == 0 then [] else (if t[0].Persist? then [t[0]] else []) + Persists(t[1..])
  }

  /** The nodes t probes for the given health field, in trace order. */
  function ProbedFor(t: seq<Event>, field: string): seq<string>
    decreases |t|
  {
    if |t| == 0 then []
    else (if t[0].Probe? && t[0].field == field then [t[0].node] else []) + ProbedFor(t[1..], field)
  }

  /** The URLs t reads from the registry, in trace order. */
  function RegistryReads(t: seq<Event>): seq<string>
    decreases |t|
  {
    if |t| == 0 then [] else (if t[0].RegistryGet? then [t[0].url] else []) + RegistryReads(t[1..])
  }

  lemma {:induction false} ConcatRegistryReads(a: seq<Event>, b: seq<Event>)
    ensures RegistryReads(a + b) == RegistryReads(a) + RegistryReads(b)
    decreases |a|
  {
    if |a| == 0 {
      assert a + b == b;
    } else {
      assert (a + b)[0] == a[0] && (a + b)[1..] == a[1..] + b;
      ConcatRegistryReads(a[1..], b);
      GoText.AppendAssoc((if a[0].RegistryGet? then [a[0].url] else []), RegistryReads(a[1..]), RegistryReads(b));
    }
  }

  lemma {:induction false} ConcatSubmitted(a: seq<Event>, b: seq<Event>)
    ensures Submitted(a + b) == Submitted(a) + Submitted(b)
    decreases |a|
  {
    if |a| == 0 {
      assert a + b == b;
    } else {
      assert (a + b)[0] == a[0] && (a + b)[1..] == a[1..] + b;
      ConcatSubmitted(a[1..], b);
      GoText.AppendAssoc((if a[0].Submit? then [a[0].key] else []), Submitted(a[1..]), Submitted(b));
    }
  }

  lemma {:induction false} ConcatProbes(a: seq<Event>, b: seq<Event>)
    ensures Probes(a + b) == Probes(a) + Probes(b)
    decreases |a|
  {
    if |a| == 0 {
      assert a + b == b;
    } else {
      assert (a + b)[0] == a[0] && (a + b)[1..] == a[1..] + b;
      ConcatProbes(a[1..], b);
      GoText.AppendAssoc((if a[0].Probe? then [a[0]] else []), Probes(a[1..]), Probes(b));
    }
  }

  lemma {:induction false} ConcatInits(a: seq<Event>, b: seq<Event>)
    ensures Inits(a + b) == Inits(a) + Inits(b)
    decreases |a|
  {
    if |a| == 0 {
      assert a + b == b;
    } else {
      assert (a + b)[0] == a[0] && (a + b)[1..] == a[1..] + b;
      ConcatInits(a[1..], b);
      GoText.AppendAssoc((if a[0].Init? then [a[0]] else []), Inits(a[1..]), Inits(b));
    }
  }

  lemma {:induction false} ConcatPersists(a: seq<Event>, b: seq<Event>)
    ensures Persists(a + b) == Persists(a) + Persists(b)
    decreases |a|
  {
    if |a| == 0 {
      assert a + b == b;
    } else {
      assert (a + b)[0] == a[0] && (a + b)[1..] == a[1..] + b;
      ConcatPersists(a[1..], b);
      GoText.AppendAssoc((if a[0].Persist? then [a[0]] else []), Persists(a[1..]), Persists(b));
    }
  }

  lemma {:induction false} ConcatProbedFor(a: seq<Event>, b: seq<Event>, field: string)
    ensures ProbedFor(a + b, field) == ProbedFor(a, field) + ProbedFor(b, field)
    decreases |a|
  {
    if |a| == 0 {
      assert a + b == b;
    } else {
      assert (a + b)[0] == a[0] && (a + b)[1..] == a[1..] + b;
      ConcatProbedFor(a[1..], b, field);
      GoText.AppendAssoc(if a[0].Probe? && a[0].field == field then [a[0].node] else [], ProbedFor(a[1..], field), ProbedFor(b, field));
    }
  }

  /** Every collection of a concatenation is the concatenation of the
      collections. */
  lemma Concat(a: seq<Event>, b: seq<Event>)
    ensures Submitted(a + b) == Submitted(a) + Submitted(b)
    ensures Probes(a + b) == Probes(a) + Probes(b)
    ensures Inits(a + b) == Inits(a) + Inits(b)
    ensures Persists(a + b) == Persists(a) + Persists(b)
  {
    ConcatSubmitted(a, b);
    ConcatProbes(a, b);
    ConcatInits(a, b);
    ConcatPersists(a, b);
  }

  /** A trace without health probes probes nothing for any field. */
  lemma {:induction false} NoProbesFor(t: seq<Event>, field: string)
    requires Probes(t) == []
    ensures ProbedFor(t, field) == []
    decreases |t|
  {
    if |t| > 0 {
      NoProbesFor(t[1..], field);
    }
  }

  /** A trace with no submission event has no submitted key, and so on. */
  lemma {:induction false} CollectorsEmpty(t: seq<Event>)
    ensures Submitted(t) == [] <==> forall i :: 0 <= i < |t| ==> !t[i].Submit?
    ensures Probes(t) == [] <==> forall i :: 0 <= i < |t| ==> !t[i].Probe?
    ensures Inits(t) == [] <==> forall i :: 0 <= i < |t| ==> !t[i].Init?
    ensures Persists(t) == [] <==> forall i :: 0 <= i < |t| ==> !t[i].Persist?
    decreases |t|
  {
    if |t| > 0 {
      CollectorsEmpty(t[1..]);
      assert forall i :: 1 <= i < |t| ==> t[i] == t[1..][i - 1];
    }
  }

  /** A trace with no submission event submits no key. */
  lemma {:induction false} NoSubmits(t: seq<Event>)
    requires forall i :: 0 <= i < |t| ==> !t[i].Submit?
    ensures Submitted(t) == []
    decreases |t|
  {
    if |t| > 0 {
      assert forall i :: 0 <= i < |t[1..]| ==> t[1..][i] == t[i + 1];
      NoSubmits(t[1..]);
    }
  }

  /** Every submission in t goes to node url. */
  predicate AllSubmitsTo(t: seq<Event>, url: string) {
    forall i :: 0 <= i < |t| && t[i].Submit? ==> t[i].node == url
  }

  /** Every submission in t sits before position p. */
  predicate SubmitsBefore(t: seq<Event>, p: int) {
    forall i :: 0 <= i < |t| && t[i].Submit? ==> i < p
  }

  /** Every submission in t sits after position p. */
  predicate SubmitsAfter(t: seq<Event>, p: int) {
    forall i :: 0 <= i < |t| && t[i].Submit? ==> p < i
  }

  /** The segments of a trace laid end to end. */
  function Flatten(segs: seq<seq<Event>>): seq<Event>
    decreases |segs|
  {
    if |segs| == 0 then [] else segs[0] + Flatten(segs[1..])
  }

  /** A trace of printed lines only touches nothing. */
  lemma {:induction false} SayOnly(t: seq<Event>)
    requires forall i :: 0 <= i < |t| ==> t[i].Say?
    ensures Submitted(t) == [] && Probes(t) == [] && Inits(t) == [] && Persists(t) == []
    decreases |t|
  {
    if |t| > 0 {
      assert forall i :: 0 <= i < |t[1..]| ==> t[1..][i] == t[i + 1];
      SayOnly(t[1..]);
    }
  }

  /** Flattening a segment followed by more segments. */
  lemma FlattenCons(seg: seq<Event>, rest: seq<seq<Event>>)
    ensures Flatten([seg] + rest) == seg + Flatten(rest)
  {
    assert ([seg] + rest)[0] == seg && ([seg] + rest)[1..] == rest;
  }

  /** Flattening the first i segments of a segment followed by more
      segments. */
  lemma FlattenFront(seg: seq<Event>, rest: seq<seq<Event>>, i: int)
    requires 0 < i <= |rest| + 1
    ensures Flatten(([seg] + rest)[..i]) == seg + Flatten(rest[..i - 1])
  {
    var front := ([seg] + rest)[..i];
    assert front[0] == seg && front[1..] == rest[..i - 1];
  }

  /** The collections of a one-event trace. */
  lemma Single(e: Event)
    ensures Submitted([e]) == if e.Submit? then [e.key] else []
    ensures Probes([e]) == if e.Probe? then [e] else []
    ensures Inits([e]) == if e.Init? then [e] else []
    ensures Persists([e]) == if e.Persist? then [e] else []
  {
    assert [e][1..] == [];
    assert Submitted([e][1..]) == [] && Probes([e][1..]) == [] && Inits([e][1..]) == [] && Persists([e][1..]) == [];
  }
}

=== FILE: gotext.dfy ===
/** Text primitives of the Go standard library that the tool relies on:
    decimal formatting and parsing (strconv.Itoa, strconv.Atoi with its
    error discarded), single-character splitting (strings.Split) and
    removal (strings.Replace with n = -1). Go strings are modelled as
    sequences of characters. */
module GoText {

  const MaxInt64: int := 0x7fff_ffff_ffff_ffff
  const MinInt64: int := -0x8000_0000_0000_0000
  const MaxUint64: int := 0xffff_ffff_ffff_ffff

  predicate IsDigit(c: char) {
    '0' <= c <= '9'
  }

  predicate AllDigits(s: string) {
    forall i :: 0 <= i < |s| ==> IsDigit(s[i])
  }

  function DigitChar(d: nat): (c: char)
    requires d < 10
    ensures IsDigit(c)
  {
    (48 + d) as char
  }

  function DigitValue(c: char): (d: nat)
    requires IsDigit(c)
    ensures d < 10 && DigitChar(d) == c
  {
    c as int - 48
  }

  /** The value of a string of decimal digits, most significant digit first. */
  function DecimalValue(s: string): nat
    requires AllDigits(s)
    decreases |s|
  {
    if |s| == 0 then 0 else 10 * DecimalValue(s[..|s| - 1]) + DigitValue(s[|s| - 1])
  }

  /** The canonical decimal digits of n: at least one digit, no leading zero. */
  function NatToDecimal(n: nat): (s: string)
    ensures |s| >= 1 && AllDigits(s)
    ensures |s| > 1 ==> s[0] != '0'
    ensures DecimalValue(s) == n
    decreases n
  {
    if n < 10 then [DigitChar(n)]
    else
      var front := NatToDecimal(n / 10);
      var s := front + [DigitChar(n % 10)];
      assert s[..|s| - 1] == front;
      s
  }

  /** strconv.Itoa: a minus sign for negative numbers, then the canonical digits. */
  function Itoa(n: int): (s: string)
    ensures |s| >= 1
    ensures n < 0 <==> s[0] == '-'
    ensures n >= 0 ==> AllDigits(s) && DecimalValue(s) == n
    ensures n < 0 ==> AllDigits(s[1..]) && DecimalValue(s[1..]) == -n
    ensures n >= 0 && |s| > 1 ==> s[0] != '0'
    ensures n < 0 ==> |s| >= 2 && (|s| > 2 ==> s[1] != '0')
  {
    if n < 0 then
      var s := "-" + NatToDecimal(-n);
      assert s[1..] == NatToDecimal(-n);
      s
    else NatToDecimal(n)
  }

  /** Distinct integers have distinct decimal forms. */
  lemma ItoaInjective(a: int, b: int)
    requires Itoa(a) == Itoa(b)
    ensures a == b
  {
    if a < 0 {
      assert Itoa(a)[1..] == Itoa(b)[1..];
    }
  }

  /** The longest prefix of s made of decimal digits. */
  function DigitPrefix(s: string): (p: string)
    ensures AllDigits(p) && p <= s
    ensures |p| < |s| ==> !IsDigit(s[|p|])
    ensures AllDigits(s) ==> p == s
    decreases |s|
  {
    if |s| == 0 || !IsDigit(s[0]) then []
    else
      var rest := DigitPrefix(s[1..]);
      [s[0]] + rest
  }

  /** n saturated to the int64 range. */
  function Clamp64(n: int): (r: int)
    ensures MinInt64 <= r <= MaxInt64
    ensures MinInt64 <= n <= MaxInt64 ==> r == n
  {
    if n < MinInt64 then MinInt64 else if n > MaxInt64 then MaxInt64 else n
  }

  /** strconv.Atoi on a 64-bit platform with its error result ignored.
      One leading sign is accepted; a string that is not a signed run of
      digits gives 0; a digit run whose value leaves the 64-bit unsigned
      range before any stray character is met saturates at the int64 bound
      of the sign, as does a value that fits 64 unsigned bits but not int64. */
  function Atoi(s: string): (r: int)
    ensures MinInt64 <= r <= MaxInt64
    ensures AllDigits(s) && |s| > 0 && DecimalValue(s) <= MaxInt64 ==> r == DecimalValue(s)
    ensures |s| == 0 ==> r == 0
    ensures AllDigits(s) && |s| > 0 ==> r == Clamp64(DecimalValue(s))
    ensures |s| > 1 && s[0] == '+' && AllDigits(s[1..]) ==> r == Clamp64(DecimalValue(s[1..]))
    ensures |s| > 1 && s[0] == '-' && AllDigits(s[1..]) ==> r == Clamp64(-(DecimalValue(s[1..]) as int))
  {
    var neg := |s| > 0 && s[0] == '-';
    var body := if |s| > 0 && (s[0] == '-' || s[0] == '+') then s[1..] else s;
    var digits := DigitPrefix(body);
    if DecimalValue(digits) > MaxUint64 then
      (if neg then MinInt64 else MaxInt64)
    else if |body| == 0 || |digits| < |body| then 0
    else if neg then
      (if DecimalValue(body) > -MinInt64 then MinInt64 else -(DecimalValue(body) as int))
    else
      (if DecimalValue(body) > MaxInt64 then MaxInt64 else DecimalValue(body))
  }

  /** A character that is not a digit after an optional sign and a run of
      digits that fits 64 unsigned bits is a syntax error, read as 0. */
  lemma AtoiSyntaxError(sign: string, digits: string, x: char, rest: string)
    requires sign == "" || sign == "+" || sign == "-"
    requires AllDigits(digits) && DecimalValue(digits) <= MaxUint64
    requires !IsDigit(x) && (|digits| > 0 || sign != "")
    ensures Atoi(sign + (digits + [x] + rest)) == 0
  {
    var t := digits + [x] + rest;
    if sign == "" {
      assert t[0] == digits[0];
    }
    SignedBody(sign, t);
    DigitPrefixOf(digits, x, rest);
    AtoiStopsEarly(sign + t, t);
  }

  /** A digit prefix that fits 64 unsigned bits and ends before the text
      after the sign does makes Atoi a syntax error. */
  lemma AtoiStopsEarly(s: string, body: string)
    requires body == if |s| > 0 && (s[0] == '-' || s[0] == '+') then s[1..] else s
    requires |DigitPrefix(body)| < |body| && DecimalValue(DigitPrefix(body)) <= MaxUint64
    ensures Atoi(s) == 0
  {
  }

  /** What Atoi reads after the sign of sign + t. */
  lemma SignedBody(sign: string, t: string)
    requires sign == "" || sign == "+" || sign == "-"
    requires sign == "" ==> |t| > 0 && IsDigit(t[0])
    ensures var s := sign + t;
            (if |s| > 0 && (s[0] == '-' || s[0] == '+') then s[1..] else s) == t
  {
    if sign != "" {
      assert (sign + t)[1..] == t;
    }
  }

  /** The digit prefix stops at the first character that is not a digit. */
  lemma {:induction false} DigitPrefixOf(digits: string, x: char, rest: string)
    requires AllDigits(digits) && !IsDigit(x)
    ensures DigitPrefix(digits + [x] + rest) == digits
    decreases |digits|
  {
    var s := digits + [x] + rest;
    if |digits| == 0 {
      assert s[0] == x;
    } else {
      assert s[0] == digits[0] && s[1..] == digits[1..] + [x] + rest;
      DigitPrefixOf(digits[1..], x, rest);
      assert digits == [digits[0]] + digits[1..];
    }
  }

  /** Parsing the decimal form of any int64 gives the number back. */
  lemma AtoiItoa(n: int)
    requires MinInt64 <= n <= MaxInt64
    ensures Atoi(Itoa(n)) == n
  {
    var s := Itoa(n);
    var body := if n < 0 then s[1..] else s;
    assert AllDigits(body);
    assert DigitPrefix(body) == body;
  }

  /** Number of occurrences of c in s. */
  function Occurrences(s: string, c: char): nat
    decreases |s|
  {
    if |s| == 0 then 0 else (if s[0] == c then 1 else 0) + Occurrences(s[1..], c)
  }

  /** strings.Replace(s, c, "", -1) for a one-character c: every c removed,
      every other character kept in order. */
  function RemoveAll(s: string, c: char): (r: string)
    ensures c !in r
    ensures |r| == |s| - Occurrences(s, c)
    ensures forall x :: x != c ==> (x in r <==> x in s)
    decreases |s|
  {
    if |s| == 0 then []
    else
      var rest := RemoveAll(s[1..], c);
      assert forall x :: x in s <==> x == s[0] || x in s[1..];
      if s[0] == c then rest else [s[0]] + rest
  }

  /** Removing c from two texts laid end to end removes it from each, so
      the characters kept stay in their order. */
  lemma {:induction false} RemoveAllConcat(a: string, b: string, c: char)
    ensures RemoveAll(a + b, c) == RemoveAll(a, c) + RemoveAll(b, c)
    decreases |a|
  {
    if |a| == 0 {
      assert a + b == b;
    } else {
      assert (a + b)[0] == a[0] && (a + b)[1..] == a[1..] + b;
      RemoveAllConcat(a[1..], b, c);
      AppendAssoc(if a[0] == c then [] else [a[0]], RemoveAll(a[1..], c), RemoveAll(b, c));
    }
  }

  lemma RemoveAllAbsent(s: string, c: char)
    requires c !in s
    ensures RemoveAll(s, c) == s
    decreases |s|
  {
    if |s| > 0 {
      RemoveAllAbsent(s[1..], c);
    }
  }

  /** Dropping every c from a line that ends in its only c leaves the
      line without its end. */
  lemma {:induction false} RemoveAllLast(s: string, c: char)
    requires c !in s
    ensures RemoveAll(s + [c], c) == s
    decreases |s|
  {
    if |s| > 0 {
      assert (s + [c])[1..] == s[1..] + [c];
      RemoveAllLast(s[1..], c);
      assert s == [s[0]] + s[1..];
    }
  }

  /** Inverse of splitting: the parts glued back with the separator. */
  function Join(parts: seq<string>, sep: char): string
    requires |parts| >= 1
    decreases |parts|
  {
    if |parts| == 1 then parts[0] else parts[0] + [sep] + Join(parts[1..], sep)
  }

  /** A character that is neither the separator nor in any part is not in
      the joined string. */
  lemma {:induction false} JoinAvoids(parts: seq<string>, sep: char, c: char)
    requires |parts| >= 1 && c != sep
    requires forall i :: 0 <= i < |parts| ==> c !in parts[i]
    ensures c !in Join(parts, sep)
    decreases |parts|
  {
    if |parts| > 1 {
      assert forall i :: 0 <= i < |parts[1..]| ==> parts[1..][i] == parts[i + 1];
      JoinAvoids(parts[1..], sep, c);
      assert c !in parts[0];
    }
  }

  /** strings.Split(s, sep) for a one-character separator: one more part
      than there are separators, even for the empty string. */
  function Split(s: string, sep: char): (parts: seq<string>)
    ensures |parts| == Occurrences(s, sep) + 1
    ensures forall i :: 0 <= i < |parts| ==> sep !in parts[i]
    ensures Join(parts, sep) == s
    decreases |s|
  {
    if |s| == 0 then [""]
    else
      var rest := Split(s[1..], sep);
      if s[0] == sep then
        assert s == [sep] + s[1..];
        [""] + rest
      else
        var parts := [[s[0]] + rest[0]] + rest[1..];
        assert parts[1..] == rest[1..];
        assert Join(parts, sep) == s by {
          if |rest| == 1 {
            assert s == [s[0]] + s[1..];
          } else {
            assert Join(rest, sep) == rest[0] + [sep] + Join(rest[1..], sep);
            assert s == [s[0]] + s[1..];
          }
        }
        parts
  }

  /** Splitting undoes joining parts that do not contain the separator. */
  lemma {:induction false} SplitJoin(parts: seq<string>, sep: char)
    requires |parts| >= 1
    requires forall i :: 0 <= i < |parts| ==> sep !in parts[i]
    ensures Split(Join(parts, sep), sep) == parts
    decreases |parts|, |parts[0]|
  {
    var p := parts[0];
    if |p| == 0 {
      if |parts| > 1 {
        SplitJoin(parts[1..], sep);
        SplitEmptyHead(parts, sep);
      }
    } else {
      var shorter := [p[1..]] + parts[1..];
      assert shorter[1..] == parts[1..];
      assert sep !in p[1..] by {
        assert forall x :: x in p[1..] ==> x in p;
      }
      assert forall i :: 0 <= i < |shorter| ==> sep !in shorter[i];
      SplitJoin(shorter, sep);
      SplitLongHead(parts, shorter, sep);
    }
  }

  /** Splitting the join of parts that start with an empty part: the empty
      part, then the split of the rest. */
  lemma SplitEmptyHead(parts: seq<string>, sep: char)
    requires |parts| > 1 && parts[0] == []
    requires Split(Join(parts[1..], sep), sep) == parts[1..]
    ensures Split(Join(parts, sep), sep) == parts
  {
    var tail := Join(parts[1..], sep);
    assert Join(parts, sep) == [sep] + tail;
    assert ([sep] + tail)[1..] == tail;
    assert parts == [[]] + parts[1..];
  }

  /** Joining parts whose first part is not empty: its first character,
      then the join with that character taken off. */
  lemma JoinLongHead(parts: seq<string>, shorter: seq<string>, sep: char)
    requires |parts| >= 1 && |parts[0]| > 0
    requires shorter == [parts[0][1..]] + parts[1..]
    ensures Join(parts, sep) == [parts[0][0]] + Join(shorter, sep)
  {
    var p := parts[0];
    assert shorter[0] == p[1..] && shorter[1..] == parts[1..];
    assert p == [p[0]] + p[1..];
    if |parts| > 1 {
      assert Join(shorter, sep) == p[1..] + [sep] + Join(parts[1..], sep);
    }
  }

  /** Splitting the join of parts whose first part is not empty: its first
      character joins the first part of the split of the rest. */
  lemma SplitLongHead(parts: seq<string>, shorter: seq<string>, sep: char)
    requires |parts| >= 1 && |parts[0]| > 0 && parts[0][0] != sep
    requires shorter == [parts[0][1..]] + parts[1..]
    requires Split(Join(shorter, sep), sep) == shorter
    ensures Split(Join(parts, sep), sep) == parts
  {
    var p := parts[0];
    var j := Join(parts, sep);
    JoinLongHead(parts, shorter, sep);
    assert j[1..] == Join(shorter, sep);
    var rest := Split(j[1..], sep);
    assert rest == shorter;
    assert Split(j, sep) == [[j[0]] + rest[0]] + rest[1..];
    assert [j[0]] + rest[0] == p;
    assert parts == [p] + rest[1..];
  }

  /** Concatenation does not depend on the grouping. */
  lemma AppendAssoc<T>(a: seq<T>, b: seq<T>, c: seq<T>)
    ensures a + (b + c) == a + b + c
  {
  }

  /** Index of the first occurrence of c in s. */
  function IndexOf(s: string, c: char): (i: nat)
    requires c in s
    ensures i < |s| && s[i] == c
    ensures c !in s[..i]
    decreases |s|
  {
    if s[0] == c then 0
    else
      assert c in s[1..] by {
        assert s == [s[0]] + s[1..];
      }
      var i := 1 + IndexOf(s[1..], c);
      assert s[..i] == [s[0]] + s[1..][..i - 1];
      i
  }

  /** The first c of a text that has none before a given c is that one. */
  lemma IndexOfFirst(a: string, c: char, b: string)
    requires c !in a
    ensures c in a + [c] + b
    ensures IndexOf(a + [c] + b, c) == |a| && (a + [c] + b)[..|a|] == a
  {
    var s := a + [c] + b;
    assert s[|a|] == c;
    assert s[..|a|] == a;
  }
}

=== FILE: orchestrator.dfy ===
/** The steps the two flows share: probing a node's health, submitting a
    batch of unseal keys concurrently, and the re-probe after the batch
    (vaultUnsealNode and the wait-group join around it). */
module Orchestrator {
  import opened Events
  import GoText
  import Registry
  import Config
  import Render

  /** The store's health answers: the reply to a health GET on a node,
      given everything the run has done before it. */
  type HealthOracle = (seq<Event>, string) -> Registry.HealthReply

  /** fmt.Sprintf("%s://%s:%s", scheme, address, port). */
  function NodeUrl(scheme: string, ep: Registry.Endpoint): string {
    scheme + "://" + ep.address + ":" + ep.port
  }

  datatype Probed = Probed(events: seq<Event>, flag: bool)

  /** The events of one health probe: the GET, then at most the line of a
      decoding error. */
  ghost predicate ProbeShape(q: seq<Event>, url: string, field: string) {
    |q| >= 1 && q[0] == Probe(url, field)
    && (forall i :: 1 <= i < |q| ==> q[i] == Say(LoggedError))
    && Submitted(q) == [] && Inits(q) == [] && Persists(q) == [] && Probes(q) == [Probe(url, field)]
  }

  /** A probe for one health field is the only probe of its events, so
      they probe the node for that field and for no other. */
  lemma ProbeFields(q: seq<Event>, url: string, field: string)
    requires ProbeShape(q, url, field)
    ensures ProbedFor(q, Registry.InitializedField) == (if field == Registry.InitializedField then [url] else [])
    ensures ProbedFor(q, Registry.SealedField) == (if field == Registry.SealedField then [url] else [])
  {
    Registry.FieldsDiffer();
    var rest := q[1..];
    assert forall i :: 0 <= i < |rest| ==> rest[i] == q[i + 1];
    SayOnly(rest);
    NoProbesFor(rest, Registry.InitializedField);
    NoProbesFor(rest, Registry.SealedField);
  }

  /** getVaultHealth on one node: one health GET, an error printed when
      the reply does not decode, and the requested field of the record. */
  function ProbeNode(history: seq<Event>, url: string, field: string, health: HealthOracle): (p: Probed)
    ensures ProbeShape(p.events, url, field)
    ensures |p.events| == 2 <==> health(history, url).HealthUndecodable?
    ensures p.flag == Registry.HealthFlag(field, health(history, url))
    ensures health(history, url).HealthUndecodable? ==> !p.flag
  {
    var reply := health(history, url);
    var probe := [Probe(url, field)];
    var logged := if reply.HealthUndecodable? then [Say(LoggedError)] else [];
    Concat(probe, logged);
    SayOnly(logged);
    assert probe[1..] == [];
    Probed(probe + logged, Registry.HealthFlag(field, reply))
  }

  /** What one iteration of the batch loop adds to the iterations after
      it: its key line and its submission. */
  lemma BatchStep(url: string, number: nat, key: string, tail: seq<Event>, rest: seq<string>)
    requires Submitted(tail) == rest && Probes(tail) == [] && Inits(tail) == [] && Persists(tail) == []
    requires forall i :: 0 <= i < |tail| ==> tail[i].Submit? || tail[i].Say?
    requires AllSubmitsTo(tail, url)
    ensures var t := [Say(UsingKey(number, key)), Submit(url, key)] + tail;
            Submitted(t) == [key] + rest && Probes(t) == [] && Inits(t) == [] && Persists(t) == []
            && (forall i :: 0 <= i < |t| ==> t[i].Submit? || t[i].Say?)
            && AllSubmitsTo(t, url)
  {
    var t := [Say(UsingKey(number, key)), Submit(url, key)] + tail;
    assert t[1..] == [Submit(url, key)] + tail;
    assert t[2..] == tail;
    forall i | 0 <= i < |t|
      ensures t[i].Submit? || t[i].Say?
      ensures t[i].Submit? ==> t[i].node == url
    {
      if i >= 2 {
        assert t[i] == tail[i - 2];
      }
    }
  }

  /** t announces each key as "Use key n", numbered on from first, right
      before submitting it to url. */
  predicate Announced(t: seq<Event>, url: string, keys: seq<string>, first: nat) {
    |t| == 2 * |keys|
    && forall i :: 0 <= i < |keys| ==>
         t[2 * i] == Say(UsingKey(first + i + 1, keys[i])) && t[2 * i + 1] == Submit(url, keys[i])
  }

  /** One more key line and submission in front of an announced batch. */
  lemma BatchLines(url: string, keys: seq<string>, first: nat, t: seq<Event>, tail: seq<Event>)
    requires |keys| > 0 && Announced(tail, url, keys[1..], first + 1)
    requires t == [Say(UsingKey(first + 1, keys[0])), Submit(url, keys[0])] + tail
    ensures Announced(t, url, keys, first)
  {
    var rest := keys[1..];
    forall i | 0 <= i < |keys|
      ensures t[2 * i] == Say(UsingKey(first + i + 1, keys[i])) && t[2 * i + 1] == Submit(url, keys[i])
    {
      if i > 0 {
        assert keys[i] == rest[i - 1];
        assert t[2 * i] == tail[2 * (i - 1)] && t[2 * i + 1] == tail[2 * (i - 1) + 1];
      }
    }
  }

  /** The batch loop: for each key, "Use key n" is printed and a goroutine
      submits the key to the node. Submissions of one batch are unordered
      in the source; here they appear in key order. */
  function SubmitBatch(url: string, keys: seq<string>, first: nat): (t: seq<Event>)
    ensures |t| == 2 * |keys|
    ensures Submitted(t) == keys
    ensures multiset(Submitted(t)) == multiset(keys)
    ensures Probes(t) == [] && Inits(t) == [] && Persists(t) == []
    ensures forall i :: 0 <= i < |t| ==> t[i].Submit? || t[i].Say?
    ensures AllSubmitsTo(t, url)
    decreases |keys|
  {
    if |keys| == 0 then []
    else
      var tail := SubmitBatch(url, keys[1..], first + 1);
      BatchStep(url, first + 1, keys[0], tail, keys[1..]);
      assert keys == [keys[0]] + keys[1..];
      [Say(UsingKey(first + 1, keys[0])), Submit(url, keys[0])] + tail
  }

  /** The i-th key of a batch is announced as "Use key first+i+1" right
      before its submission. */
  lemma {:induction false} SubmitBatchLines(url: string, keys: seq<string>, first: nat)
    ensures Announced(SubmitBatch(url, keys, first), url, keys, first)
    decreases |keys|
  {
    if |keys| > 0 {
      SubmitBatchLines(url, keys[1..], first + 1);
      BatchLines(url, keys, first, SubmitBatch(url, keys, first), SubmitBatch(url, keys[1..], first + 1));
    }
  }

  /** The line printed after the re-probe of a node. */
  function Verdict(sealed: bool): (n: Note)
    ensures n.NodeStillSealed? <==> sealed
    ensures n.NodeUnsealed? <==> !sealed
  {
    if sealed then NodeStillSealed else NodeUnsealed
  }

  /** One finished round on a node: the events, and the position of the
      health probe that decides the outcome. */
  datatype Round = Round(events: seq<Event>, finalProbe: nat)

  /** The shape of a round: a batch of submissions and key lines, then
      the probe with its error line, then the verdict line. */
  lemma RoundShape(url: string, batch: seq<string>, b: seq<Event>, q: seq<Event>, v: Event)
    requires Submitted(b) == batch && Probes(b) == [] && Inits(b) == [] && Persists(b) == [] && AllSubmitsTo(b, url)
    requires forall i :: 0 <= i < |b| ==> b[i].Submit? || b[i].Say?
    requires ProbeShape(q, url, Registry.SealedField)
    requires v.Say?
    ensures (b + q + [v])[|b|] == q[0]
    ensures Submitted(b + q + [v]) == batch
    ensures (b + q + [v])[..|b|] == b
    ensures SubmitsBefore(b + q + [v], |b|)
    ensures Probes(b + q + [v]) == [q[0]]
    ensures Inits(b + q + [v]) == [] && Persists(b + q + [v]) == []
    ensures AllSubmitsTo(b + q + [v], url)
    ensures forall i :: 0 <= i < |b + q + [v]| && (b + q + [v])[i].Probe? ==> i == |b|
    ensures ProbedFor(b + q + [v], Registry.InitializedField) == []
  {
    RoundCollectors(url, batch, b, q, v);
    ProbePosition(b, q, v);
  }

  /** What a round of that shape submits, probes, initialises and writes. */
  lemma RoundCollectors(url: string, batch: seq<string>, b: seq<Event>, q: seq<Event>, v: Event)
    requires Submitted(b) == batch && Probes(b) == [] && Inits(b) == [] && Persists(b) == [] && AllSubmitsTo(b, url)
    requires forall i :: 0 <= i < |b| ==> b[i].Submit? || b[i].Say?
    requires ProbeShape(q, url, Registry.SealedField)
    requires v.Say?
    ensures Submitted(b + q + [v]) == batch
    ensures Probes(b + q + [v]) == [q[0]]
    ensures Inits(b + q + [v]) == [] && Persists(b + q + [v]) == []
    ensures AllSubmitsTo(b + q + [v], url)
    ensures ProbedFor(b + q + [v], Registry.InitializedField) == []
  {
    ProbeFields(q, url, Registry.SealedField);
    NoProbesFor(b, Registry.InitializedField);
    SayQuiet(v, url);
    forall i | 0 <= i < |q|
      ensures !q[i].Submit?
    {
      if i > 0 {
        assert q[i] == Say(LoggedError);
      }
    }
    JoinQuiet(b, q, url);
    JoinQuiet(b + q, [v], url);
  }

  /** In a batch followed by a probe and a printed line, the probe is the
      only probe and comes after every submission. */
  lemma ProbePosition(b: seq<Event>, q: seq<Event>, v: Event)
    requires forall i :: 0 <= i < |b| ==> b[i].Submit? || b[i].Say?
    requires |q| >= 1 && q[0].Probe? && forall i :: 1 <= i < |q| ==> q[i] == Say(LoggedError)
    requires v.Say?
    ensures (b + q + [v])[|b|] == q[0]
    ensures (b + q + [v])[..|b|] == b
    ensures SubmitsBefore(b + q + [v], |b|)
    ensures forall i :: 0 <= i < |b + q + [v]| && (b + q + [v])[i].Probe? ==> i == |b|
  {
    var events := b + q + [v];
    assert events[..|b|] == b;
    forall i | 0 <= i < |events|
      ensures events[i].Submit? ==> i < |b|
      ensures events[i].Probe? ==> i == |b|
    {
      if i < |b| {
        assert events[i] == b[i];
      } else if i < |b| + |q| {
        assert events[i] == q[i - |b|];
      } else {
        assert events[i] == v;
      }
    }
  }

  /** r submits exactly batch to url, waits for every submission, probes
      the seal state exactly once at finalProbe, and ends with the verdict
      of that probe's reply given the history before it. */
  ghost predicate Settles(history: seq<Event>, r: Round, url: string, batch: seq<string>, health: HealthOracle) {
    r.finalProbe < |r.events| && r.events[r.finalProbe] == Probe(url, Registry.SealedField)
    && Submitted(r.events) == batch
    && Submitted(r.events[..r.finalProbe]) == batch
    && SubmitsBefore(r.events, r.finalProbe)
    && Probes(r.events) == [Probe(url, Registry.SealedField)]
    && Inits(r.events) == [] && Persists(r.events) == []
    && AllSubmitsTo(r.events, url)
    && (forall i :: 0 <= i < |r.events| && r.events[i].Probe? ==> i == r.finalProbe)
    && ProbedFor(r.events, Registry.InitializedField) == []
    && r.events[|r.events| - 1]
       == Say(Verdict(Registry.HealthFlag(Registry.SealedField, health(history + r.events[..r.finalProbe], url))))
  }

  /** Submit the batch, wait for every submission, re-probe the seal state
      and report the outcome. */
  function Conclude(history: seq<Event>, url: string, batch: seq<string>, health: HealthOracle): (r: Round)
    ensures Settles(history, r, url, batch, health)
  {
    var batchEvents := SubmitBatch(url, batch, 0);
    var probed := ProbeNode(history + batchEvents, url, Registry.SealedField, health);
    var verdict := Say(Verdict(probed.flag));
    RoundSettles(history, url, batch, batchEvents, probed.events, verdict, health);
    Round(batchEvents + probed.events + [verdict], |batchEvents|)
  }

  /** A batch, the probe after it and the verdict of that probe settle
      the round. */
  lemma RoundSettles(history: seq<Event>, url: string, batch: seq<string>, b: seq<Event>, q: seq<Event>, v: Event,
                     health: HealthOracle)
    requires Submitted(b) == batch && Probes(b) == [] && Inits(b) == [] && Persists(b) == [] && AllSubmitsTo(b, url)
    requires forall i :: 0 <= i < |b| ==> b[i].Submit? || b[i].Say?
    requires ProbeShape(q, url, Registry.SealedField)
    requires v == Say(Verdict(Registry.HealthFlag(Registry.SealedField, health(history + b, url))))
    ensures Settles(history, Round(b + q + [v], |b|), url, batch, health)
  {
    RoundShape(url, batch, b, q, v);
    var r := Round(b + q + [v], |b|);
    assert r.events[..r.finalProbe] == b;
    assert r.events[|r.events| - 1] == v;
  }

  // ----------------------------------------------------------------- rounds

  /** After position from, seg submits exactly keys, every submission comes
      before the probe that follows them, and seg ends with the verdict of
      that probe's reply. */
  predicate Concluded(before: seq<Event>, seg: seq<Event>, from: int, url: string,
                      keys: seq<string>, health: HealthOracle)
  {
    |seg| >= 1 && Submitted(seg) == keys && SubmitsAfter(seg, from)
    && forall p :: 0 <= p < |seg| && from < p && seg[p].Probe? ==>
         SubmitsBefore(seg, p)
         && seg[|seg| - 1] == Say(Verdict(Registry.HealthFlag(Registry.SealedField, health(before + seg[..p], url))))
  }

  /** The probe of a round that follows a preamble free of submissions
      comes after every submission, and decides the verdict. */
  lemma ProbeAfterPreamble(before: seq<Event>, pre: seq<Event>, r: Round, p: int, url: string, health: HealthOracle)
    requires Settles(before + pre, r, url, Submitted(r.events), health)
    requires forall i :: 0 <= i < |pre| ==> !pre[i].Submit?
    requires |pre| <= p < |pre| + |r.events| && (pre + r.events)[p].Probe?
    ensures SubmitsBefore(pre + r.events, p)
    ensures (pre + r.events)[|pre + r.events| - 1]
         == Say(Verdict(Registry.HealthFlag(Registry.SealedField, health(before + (pre + r.events)[..p], url))))
  {
    var seg := pre + r.events;
    assert seg[p] == r.events[p - |pre|];
    assert p - |pre| == r.finalProbe;
    assert seg[..p] == pre + r.events[..r.finalProbe];
    assert before + seg[..p] == (before + pre) + r.events[..r.finalProbe];
    assert seg[|seg| - 1] == r.events[|r.events| - 1];
    forall i | 0 <= i < |seg| && seg[i].Submit?
      ensures i < p
    {
      assert seg[i] == r.events[i - |pre|];
    }
  }

  /** A round that follows a preamble free of submissions, and free of
      probes after position from, concludes after from. */
  lemma ConcludedAfter(before: seq<Event>, pre: seq<Event>, r: Round, from: nat, url: string, keys: seq<string>, health: HealthOracle)
    requires Settles(before + pre, r, url, keys, health)
    requires from < |pre|
    requires forall i :: 0 <= i < |pre| ==> !pre[i].Submit?
    requires forall i :: from < i < |pre| ==> !pre[i].Probe?
    ensures Concluded(before, pre + r.events, from, url, keys, health)
  {
    var seg := pre + r.events;
    NoSubmits(pre);
    ConcatSubmitted(pre, r.events);
    assert forall i :: 0 <= i < |pre| ==> seg[i] == pre[i];
    forall p | 0 <= p < |seg| && from < p && seg[p].Probe?
      ensures SubmitsBefore(seg, p)
      ensures seg[|seg| - 1]
           == Say(Verdict(Registry.HealthFlag(Registry.SealedField, health(before + seg[..p], url))))
    {
      ProbeAfterPreamble(before, pre, r, p, url, health);
    }
  }

  /** The bootstrap submits the key prefix to every node without looking
      first; the interactive unseal looks first and skips unsealed nodes. */
  datatype Mode = BootstrapMode | InteractiveMode

  /** What one iteration of the unseal loop over the node map does on the
      node filed under name, reachable at url, after the events before. */
  predicate IsRound(mode: Mode, before: seq<Event>, seg: seq<Event>, name: string, url: string,
                    keys: seq<string>, health: HealthOracle)
  {
    |seg| >= 2 && seg[0] == Say(UnsealingNode(name, url))
    && Inits(seg) == [] && Persists(seg) == [] && AllSubmitsTo(seg, url)
    && ProbedFor(seg, Registry.InitializedField) == []
    && match mode
       case BootstrapMode =>
         Probes(seg) == [Probe(url, Registry.SealedField)] && Concluded(before, seg, 0, url, keys, health)
       case InteractiveMode =>
         seg[1] == Probe(url, Registry.SealedField)
         && if Registry.HealthFlag(Registry.SealedField, health(before + seg[..1], url)) then
              Probes(seg) == [seg[1], seg[1]] && Concluded(before, seg, 1, url, keys, health)
            else
              Probes(seg) == [seg[1]] && Submitted(seg) == [] && seg[|seg| - 1] == Say(AlreadyUnsealed(name))
  }

  /** The bootstrap's round: announce the node, submit the batch, re-probe. */
  function BatchRound(before: seq<Event>, name: string, url: string, keys: seq<string>, health: HealthOracle): (seg: seq<Event>)
    ensures IsRound(BootstrapMode, before, seg, name, url, keys, health)
  {
    var say := Say(UnsealingNode(name, url));
    var r := Conclude(before + [say], url, keys, health);
    BatchRoundShape(before, name, url, keys, health, r);
    [say] + r.events
  }

  /** A printed line touches nothing. */
  lemma SayQuiet(e: Event, url: string)
    requires e.Say?
    ensures Submitted([e]) == [] && Probes([e]) == [] && Inits([e]) == [] && Persists([e]) == []
    ensures ProbedFor([e], Registry.InitializedField) == [] && AllSubmitsTo([e], url)
  {
    assert [e][1..] == [];
  }

  lemma BatchRoundShape(before: seq<Event>, name: string, url: string, keys: seq<string>, health: HealthOracle, r: Round)
    requires Settles(before + [Say(UnsealingNode(name, url))], r, url, keys, health)
    ensures IsRound(BootstrapMode, before, [Say(UnsealingNode(name, url))] + r.events, name, url, keys, health)
  {
    var say := Say(UnsealingNode(name, url));
    SayQuiet(say, url);
    JoinQuiet([say], r.events, url);
    ConcludedAfter(before, [say], r, 0, url, keys, health);
  }

  /** Pieces that make no init call, write no file, never probe for
      Initialized and submit only to url stay so when laid end to end. */
  lemma JoinQuiet(a: seq<Event>, b: seq<Event>, url: string)
    requires Inits(a) == [] && Persists(a) == [] && ProbedFor(a, Registry.InitializedField) == [] && AllSubmitsTo(a, url)
    requires Inits(b) == [] && Persists(b) == [] && ProbedFor(b, Registry.InitializedField) == [] && AllSubmitsTo(b, url)
    ensures Inits(a + b) == [] && Persists(a + b) == [] && ProbedFor(a + b, Registry.InitializedField) == []
    ensures AllSubmitsTo(a + b, url)
    ensures Probes(a + b) == Probes(a) + Probes(b)
    ensures Submitted(a + b) == Submitted(a) + Submitted(b)
  {
    ConcatInits(a, b);
    ConcatPersists(a, b);
    ConcatProbedFor(a, b, Registry.InitializedField);
    ConcatProbes(a, b);
    ConcatSubmitted(a, b);
    forall i | 0 <= i < |a + b| && (a + b)[i].Submit?
      ensures (a + b)[i].node == url
    {
      if i < |a| {
        assert (a + b)[i] == a[i];
      } else {
        assert (a + b)[i] == b[i - |a|];
      }
    }
  }

  /** The node announcement followed by the first seal probe: no
      submission, and no probe after position 1. */
  lemma CheckedPreamble(say: Event, q: seq<Event>, url: string)
    requires say.Say?
    requires ProbeShape(q, url, Registry.SealedField)
    ensures var pre := [say] + q;
            |pre| >= 2 && pre[0] == say && pre[1] == Probe(url, Registry.SealedField)
            && Inits(pre) == [] && Persists(pre) == [] && ProbedFor(pre, Registry.InitializedField) == []
            && AllSubmitsTo(pre, url) && Submitted(pre) == [] && Probes(pre) == [Probe(url, Registry.SealedField)]
            && (forall i :: 0 <= i < |pre| ==> !pre[i].Submit? && (1 < i ==> !pre[i].Probe?))
  {
    var pre := [say] + q;
    ProbeFields(q, url, Registry.SealedField);
    SayQuiet(say, url);
    forall i | 0 <= i < |q|
      ensures !q[i].Submit?
    {
      if i > 0 {
        assert q[i] == Say(LoggedError);
      }
    }
    JoinQuiet([say], q, url);
    assert forall i :: 0 < i < |pre| ==> pre[i] == q[i - 1];
  }

  /** The interactive round: announce the node and probe it; an unsealed
      node is reported and left alone, a sealed one gets every key and a
      re-probe. */
  function CheckedRound(before: seq<Event>, name: string, url: string, keys: seq<string>, health: HealthOracle): (seg: seq<Event>)
    ensures IsRound(InteractiveMode, before, seg, name, url, keys, health)
  {
    var say := Say(UnsealingNode(name, url));
    var p := ProbeNode(before + [say], url, Registry.SealedField, health);
    if !p.flag then
      SkippedRound(before, name, url, keys, health, p);
      [say] + p.events + [Say(AlreadyUnsealed(name))]
    else
      var r := Conclude(before + [say] + p.events, url, keys, health);
      SealedRound(before, name, url, keys, health, p, r);
      [say] + p.events + r.events
  }

  /** A node the first probe finds unsealed gets no key. */
  lemma SkippedRound(before: seq<Event>, name: string, url: string, keys: seq<string>, health: HealthOracle, p: Probed)
    requires ProbeShape(p.events, url, Registry.SealedField)
    requires p.flag == Registry.HealthFlag(Registry.SealedField, health(before + [Say(UnsealingNode(name, url))], url))
    requires !p.flag
    ensures IsRound(InteractiveMode, before, [Say(UnsealingNode(name, url))] + p.events + [Say(AlreadyUnsealed(name))],
                    name, url, keys, health)
  {
    var say := Say(UnsealingNode(name, url));
    var pre := [say] + p.events;
    var last := Say(AlreadyUnsealed(name));
    var seg := pre + [last];
    CheckedPreamble(say, p.events, url);
    SayQuiet(last, url);
    JoinQuiet(pre, [last], url);
    assert seg[..1] == [say];
    assert seg[1] == pre[1];
  }

  /** A node the first probe finds sealed gets every key, then a re-probe. */
  lemma SealedRound(before: seq<Event>, name: string, url: string, keys: seq<string>, health: HealthOracle,
                    p: Probed, r: Round)
    requires ProbeShape(p.events, url, Registry.SealedField)
    requires p.flag == Registry.HealthFlag(Registry.SealedField, health(before + [Say(UnsealingNode(name, url))], url))
    requires p.flag
    requires Settles(before + [Say(UnsealingNode(name, url))] + p.events, r, url, keys, health)
    ensures IsRound(InteractiveMode, before, [Say(UnsealingNode(name, url))] + p.events + r.events, name, url, keys, health)
  {
    var say := Say(UnsealingNode(name, url));
    var pre := [say] + p.events;
    var seg := pre + r.events;
    CheckedPreamble(say, p.events, url);
    JoinQuiet(pre, r.events, url);
    assert seg[..1] == [say];
    assert seg[1] == pre[1];
    GoText.AppendAssoc(before, [say], p.events);
    ConcludedAfter(before, pre, r, 1, url, keys, health);
  }

  function RoundOf(mode: Mode, before: seq<Event>, name: string, url: string, keys: seq<string>, health: HealthOracle): (seg: seq<Event>)
    ensures IsRound(mode, before, seg, name, url, keys, health)
  {
    match mode
    case BootstrapMode => BatchRound(before, name, url, keys, health)
    case InteractiveMode => CheckedRound(before, name, url, keys, health)
  }

  /** keys, n times over. */
  function Repeat(keys: seq<string>, n: nat): (r: seq<string>)
    ensures |r| == n * |keys|
  {
    if n == 0 then [] else keys + Repeat(keys, n - 1)
  }

  /** One iteration of the loop over the node map: the events of the
      round on the node filed under a name and reachable at a URL, given
      the events before it. */
  type RoundStep = (seq<Event>, string, string) -> seq<Event>

  /** The loop over the nodes of order, in that order: one round per node,
      each run after the rounds before it. */
  function Loop(before: seq<Event>, scheme: string, service: map<string, Registry.Endpoint>,
                order: seq<string>, round: RoundStep): (segs: seq<seq<Event>>)
    requires forall i :: 0 <= i < |order| ==> order[i] in service
    ensures |segs| == |order|
    decreases |order|
  {
    if |order| == 0 then []
    else
      var seg := round(before, order[0], NodeUrl(scheme, service[order[0]]));
      [seg] + Loop(before + seg, scheme, service, order[1..], round)
  }

  /** The round at position i of the loop is the round of the i-th node,
      run after every round before it. */
  lemma {:induction false} LoopAt(before: seq<Event>, scheme: string, service: map<string, Registry.Endpoint>,
                                  order: seq<string>, round: RoundStep, i: int)
    requires forall j :: 0 <= j < |order| ==> order[j] in service
    requires 0 <= i < |order|
    ensures var segs := Loop(before, scheme, service, order, round);
            segs[i] == round(before + Flatten(segs[..i]), order[i], NodeUrl(scheme, service[order[i]]))
    decreases i
  {
    var segs := Loop(before, scheme, service, order, round);
    var seg := segs[0];
    var rest := Loop(before + seg, scheme, service, order[1..], round);
    assert segs == [seg] + rest;
    if i == 0 {
      assert segs[..0] == [];
      assert before + Flatten(segs[..0]) == before;
    } else {
      LoopAt(before + seg, scheme, service, order[1..], round, i - 1);
      FlattenFront(seg, rest, i);
      var earlier := Flatten(rest[..i - 1]);
      assert Flatten(segs[..i]) == seg + earlier;
      GoText.AppendAssoc(before, seg, earlier);
      assert segs[i] == rest[i - 1] && order[i] == order[1..][i - 1];
    }
  }

  /** A round that makes no init call, writes no file, never probes for
      Initialized and, when counted, submits exactly keys. */
  predicate QuietRound(seg: seq<Event>, keys: seq<string>, counted: bool) {
    Inits(seg) == [] && Persists(seg) == [] && ProbedFor(seg, Registry.InitializedField) == []
    && (counted ==> Submitted(seg) == keys)
  }

  /** A loop of quiet rounds is quiet, and submits keys once per node when
      every round does. */
  lemma {:induction false} LoopQuiet(before: seq<Event>, scheme: string, service: map<string, Registry.Endpoint>,
                                     order: seq<string>, round: RoundStep, keys: seq<string>, counted: bool)
    requires forall i :: 0 <= i < |order| ==> order[i] in service
    requires forall b, name, url :: QuietRound(round(b, name, url), keys, counted)
    ensures var segs := Loop(before, scheme, service, order, round);
            Inits(Flatten(segs)) == [] && Persists(Flatten(segs)) == []
            && ProbedFor(Flatten(segs), Registry.InitializedField) == []
            && (counted ==> Submitted(Flatten(segs)) == Repeat(keys, |order|))
    decreases |order|
  {
    var segs := Loop(before, scheme, service, order, round);
    if |order| == 0 {
      assert Flatten(segs) == [];
    } else {
      var seg := segs[0];
      var rest := Loop(before + seg, scheme, service, order[1..], round);
      LoopQuiet(before + seg, scheme, service, order[1..], round, keys, counted);
      assert segs == [seg] + rest;
      FlattenCons(seg, rest);
      ConcatInits(seg, Flatten(rest));
      ConcatPersists(seg, Flatten(rest));
      ConcatProbedFor(seg, Flatten(rest), Registry.InitializedField);
      ConcatSubmitted(seg, Flatten(rest));
    }
  }

  /** The round of the loop in the given mode, with the given keys. */
  function StepOf(mode: Mode, keys: seq<string>, health: HealthOracle): RoundStep {
    (b: seq<Event>, name: string, url: string) => RoundOf(mode, b, name, url, keys, health)
  }

  /** The unseal loop over the nodes in iteration order. */
  function Rounds(mode: Mode, before: seq<Event>, scheme: string, service: map<string, Registry.Endpoint>,
                  order: seq<string>, keys: seq<string>, health: HealthOracle): (segs: seq<seq<Event>>)
    requires forall i :: 0 <= i < |order| ==> order[i] in service
    ensures |segs| == |order|
  {
    Loop(before, scheme, service, order, StepOf(mode, keys, health))
  }

  /** Every round, bootstrap or interactive, is quiet, and a bootstrap
      round submits exactly its batch. */
  lemma RoundIsQuiet(mode: Mode, before: seq<Event>, seg: seq<Event>, name: string, url: string,
                     keys: seq<string>, health: HealthOracle)
    requires IsRound(mode, before, seg, name, url, keys, health)
    ensures QuietRound(seg, keys, mode == BootstrapMode)
  {
  }

  /** The rounds of the loop make no init call, write no file and never
      probe for Initialized; in the bootstrap, the keys submitted over all
      rounds are the batch once per node. */
  lemma RoundsProperties(mode: Mode, before: seq<Event>, scheme: string,
                         service: map<string, Registry.Endpoint>, order: seq<string>,
                         keys: seq<string>, health: HealthOracle)
    requires forall i :: 0 <= i < |order| ==> order[i] in service
    ensures var segs := Rounds(mode, before, scheme, service, order, keys, health);
            Inits(Flatten(segs)) == [] && Persists(Flatten(segs)) == []
            && ProbedFor(Flatten(segs), Registry.InitializedField) == []
            && (mode == BootstrapMode ==> Submitted(Flatten(segs)) == Repeat(keys, |order|))
  {
    var round := StepOf(mode, keys, health);
    forall b, name, url
      ensures QuietRound(round(b, name, url), keys, mode == BootstrapMode)
    {
      RoundIsQuiet(mode, b, RoundOf(mode, b, name, url, keys, health), name, url, keys, health);
    }
    LoopQuiet(before, scheme, service, order, round, keys, mode == BootstrapMode);
  }

  /** Every round of the loop, at its position, is what one iteration does
      on its node after the rounds before it. */
  lemma RoundsFollowAll(mode: Mode, before: seq<Event>, scheme: string,
                        service: map<string, Registry.Endpoint>, order: seq<string>, keys: seq<string>,
                        health: HealthOracle)
    requires forall j :: 0 <= j < |order| ==> order[j] in service
    ensures var segs := Rounds(mode, before, scheme, service, order, keys, health);
            forall i :: 0 <= i < |order| ==>
              IsRound(mode, before + Flatten(segs[..i]), segs[i], order[i], NodeUrl(scheme, service[order[i]]), keys, health)
  {
    var segs := Rounds(mode, before, scheme, service, order, keys, health);
    forall i | 0 <= i < |order|
      ensures IsRound(mode, before + Flatten(segs[..i]), segs[i], order[i], NodeUrl(scheme, service[order[i]]), keys, health)
    {
      LoopAt(before, scheme, service, order, StepOf(mode, keys, health), i);
    }
  }

  // -------------------------------------------------------------- discovery

  /** Everything outside the tool a run depends on: the registry's replies,
      the two iteration orders Go happens to pick for the node map, the
      store's init reply and its health answers. */
  datatype World = World(
    kv: Registry.KVReply, catalog: Registry.ServiceReply,
    probeOrder: seq<string>, unsealOrder: seq<string>,
    initReply: Render.InitReply, health: HealthOracle)

  /** order lists every key of m exactly once. */
  predicate IsEnumeration(m: map<string, Registry.Endpoint>, order: seq<string>) {
    (forall i :: 0 <= i < |order| ==> order[i] in m)
    && (forall i, j :: 0 <= i < j < |order| ==> order[i] != order[j])
    && (forall k :: k in m ==> k in order)
  }

  /** The elements of a sequence without repeats are as many as its length. */
  lemma {:induction false} DistinctElements(order: seq<string>)
    requires forall i, j :: 0 <= i < j < |order| ==> order[i] != order[j]
    ensures |set k | k in order| == |order|
    decreases |order|
  {
    if |order| > 0 {
      DistinctTail(order);
      DistinctElements(order[1..]);
      ElementsOfTail(order);
    }
  }

  /** The tail of a sequence without repeats has none, and lacks the head. */
  lemma DistinctTail(order: seq<string>)
    requires |order| > 0
    requires forall i, j :: 0 <= i < j < |order| ==> order[i] != order[j]
    ensures forall i, j :: 0 <= i < j < |order[1..]| ==> order[1..][i] != order[1..][j]
    ensures order[0] !in order[1..]
  {
    assert forall i :: 0 <= i < |order[1..]| ==> order[1..][i] == order[i + 1];
  }

  /** The elements of a non-empty sequence are its head and the elements
      of its tail. */
  lemma ElementsOfTail<T>(s: seq<T>)
    requires |s| > 0
    ensures (set k | k in s) == (set k | k in s[1..]) + {s[0]}
  {
    assert s == [s[0]] + s[1..];
  }

  /** An enumeration visits each node of the map once: as many steps as
      the map has entries. */
  lemma EnumerationSize(m: map<string, Registry.Endpoint>, order: seq<string>)
    requires IsEnumeration(m, order)
    ensures |order| == |m|
  {
    DistinctElements(order);
    assert (set k | k in order) == m.Keys;
  }

  /** Both iteration orders range over the node map the catalog reply gives. */
  predicate Consistent(w: World) {
    IsEnumeration(Registry.NodeMap(w.catalog), w.probeOrder)
    && IsEnumeration(Registry.NodeMap(w.catalog), w.unsealOrder)
  }

  /** The URL of the node the loop over the node map visits i-th. */
  function UnsealNode(w: World, i: int): (url: string)
    requires Consistent(w) && 0 <= i < |w.unsealOrder|
  {
    NodeUrl(Registry.KVValue(w.kv), Registry.NodeMap(w.catalog)[w.unsealOrder[i]])
  }

  /** The registry URL of the key holding the store's scheme. */
  function KVUrl(c: Config.Config): string {
    c.consul.scheme + "://" + c.consul.addr + ":/v1/kv/" + c.vault.scheme
  }

  /** The registry URL of the store's service in the catalog. */
  function CatalogUrl(c: Config.Config): string {
    c.consul.scheme + "://" + c.consul.addr + ":/v1/catalog/service/" + c.vault.name
  }

  /** The error readConfig prints when the file did not parse. */
  function ConfigLog(file: Config.ConfigFile): (t: seq<Event>)
    ensures NetworkFree(t)
    ensures forall i :: 0 <= i < |t| ==> t[i] == Say(LoggedError)
    ensures t == [] <==> !file.failed
  {
    if file.failed then [Say(LoggedError)] else []
  }

  /** One registry read: the GET, then the error printed when the reply does
      not decode. */
  function Fetch(url: string, token: string, undecodable: bool): (t: seq<Event>)
    ensures |t| >= 1 && t[0] == RegistryGet(url, token)
    ensures Say(LoggedError) in t <==> undecodable
    ensures Submitted(t) == [] && Probes(t) == [] && Inits(t) == [] && Persists(t) == []
    ensures RegistryReads(t) == [url]
  {
    var logged := if undecodable then [Say(LoggedError)] else [];
    SayOnly(logged);
    Concat([RegistryGet(url, token)], logged);
    ConcatRegistryReads([RegistryGet(url, token)], logged);
    assert [RegistryGet(url, token)][1..] == [];
    assert undecodable ==> logged[1..] == [];
    [RegistryGet(url, token)] + logged
  }

  datatype Discovery = Discovery(events: seq<Event>, scheme: string, service: map<string, Registry.Endpoint>)

  /** getKVValue then getNodeOfService: the store's scheme and node map,
      read with the registry token. */
  function Discover(token: string, c: Config.Config, w: World): (d: Discovery)
    ensures |d.events| >= 2 && d.events[0] == RegistryGet(KVUrl(c), token)
    ensures RegistryGet(CatalogUrl(c), token) in d.events
    ensures Say(LoggedError) in d.events <==> w.kv.KVUndecodable? || w.catalog.ServiceUndecodable?
    ensures Submitted(d.events) == [] && Probes(d.events) == [] && Inits(d.events) == [] && Persists(d.events) == []
    ensures d.scheme == Registry.KVValue(w.kv) && d.service == Registry.NodeMap(w.catalog)
  {
    var kv := Fetch(KVUrl(c), token, w.kv.KVUndecodable?);
    var catalog := Fetch(CatalogUrl(c), token, w.catalog.ServiceUndecodable?);
    Concat(kv, catalog);
    assert (kv + catalog)[|kv|] == catalog[0];
    Discovery(kv + catalog, Registry.KVValue(w.kv), Registry.NodeMap(w.catalog))
  }

  /** Discovery reads exactly two registry URLs: the key/value entry, then
      the catalog. */
  lemma DiscoverReads(token: string, c: Config.Config, w: World)
    ensures RegistryReads(Discover(token, c, w).events) == [KVUrl(c), CatalogUrl(c)]
  {
    var kv := Fetch(KVUrl(c), token, w.kv.KVUndecodable?);
    var catalog := Fetch(CatalogUrl(c), token, w.catalog.ServiceUndecodable?);
    assert Discover(token, c, w).events == kv + catalog;
    ConcatRegistryReads(kv, catalog);
  }
}

=== FILE: registry.dfy ===
/** Shaping of the replies the tool reads: the registry catalog's service
    records become the node map (getNodeOfService), the registry key/value
    records become one decoded value (getKVValue), and the store's health
    record becomes one flag (getVaultHealth). Replies arrive already
    JSON-decoded; a reply Go's decoder rejects is its own constructor. */
module Registry {
  import GoText
  import Base64

  // ---------------------------------------------------------------- catalog

  /** The fields of a catalog service record the tool reads. */
  datatype ServiceRecord = ServiceRecord(node: string, address: string, servicePort: int, createIndex: int)

  datatype ServiceReply = ServiceUndecodable | ServiceRecords(records: seq<ServiceRecord>)

  /** A node map entry: the node address and the decimal service port. */
  datatype Endpoint = Endpoint(address: string, port: string)

  const ReplacementChar: char := 0xFFFD as char

  predicate IsScalarValue(i: int) {
    0 <= i < 0xD800 || 0xE000 <= i <= 0x10FFFF
  }

  /** Go's string(i) for an integer i: the one-character string of code
      point i, or U+FFFD when i is not a Unicode scalar value. */
  function RuneString(i: int): (s: string)
    ensures |s| == 1
    ensures IsScalarValue(i) ==> s[0] as int == i
    ensures !IsScalarValue(i) ==> s[0] == ReplacementChar
  {
    if IsScalarValue(i) then [i as char] else [ReplacementChar]
  }

  /** Two scalar values never share a key; all other integers share one. */
  lemma RuneStringCollisions(a: int, b: int)
    ensures IsScalarValue(a) && IsScalarValue(b) ==> (RuneString(a) == RuneString(b) <==> a == b)
    ensures !IsScalarValue(a) && !IsScalarValue(b) ==> RuneString(a) == RuneString(b)
  {
  }

  /** The key a record is filed under: string(CreateIndex). */
  function NodeKey(r: ServiceRecord): string {
    RuneString(r.createIndex)
  }

  function EndpointOf(r: ServiceRecord): Endpoint {
    Endpoint(r.address, GoText.Itoa(r.servicePort))
  }

  /** No record after position i is filed under the same key. */
  predicate LastWithItsKey(records: seq<ServiceRecord>, i: int)
    requires 0 <= i < |records|
  {
    forall j :: i < j < |records| ==> NodeKey(records[j]) != NodeKey(records[i])
  }

  lemma MapUpdateSize<K, V>(m: map<K, V>, k: K, v: V)
    ensures |m[k := v]| <= |m| + 1
    ensures k in m ==> |m[k := v]| == |m|
  {
    if k in m {
      assert m[k := v].Keys == m.Keys;
    } else {
      assert m[k := v].Keys == m.Keys + {k};
    }
  }

  /** The map built by inserting the records in order, a later record
      replacing an earlier one filed under the same key. */
  function BuildNodeMap(records: seq<ServiceRecord>): (m: map<string, Endpoint>)
    ensures forall i :: 0 <= i < |records| ==> NodeKey(records[i]) in m
    ensures |m| <= |records|
    decreases |records|
  {
    if |records| == 0 then map[]
    else
      var front := records[..|records| - 1];
      var last := records[|records| - 1];
      var m0 := BuildNodeMap(front);
      var m := m0[NodeKey(last) := EndpointOf(last)];
      MapUpdateSize(m0, NodeKey(last), EndpointOf(last));
      InsertLastKeepsKeys(records, front, m0, EndpointOf(last));
      m
  }

  /** Inserting the last record into a map that holds the keys of the
      records before it gives a map that holds every record's key. */
  lemma InsertLastKeepsKeys(records: seq<ServiceRecord>, front: seq<ServiceRecord>, m0: map<string, Endpoint>, v: Endpoint)
    requires |records| > 0 && front == records[..|records| - 1]
    requires forall i :: 0 <= i < |front| ==> NodeKey(front[i]) in m0
    ensures forall i :: 0 <= i < |records| ==> NodeKey(records[i]) in m0[NodeKey(records[|records| - 1]) := v]
  {
    forall i | 0 <= i < |records|
      ensures NodeKey(records[i]) in m0[NodeKey(records[|records| - 1]) := v]
    {
      if i < |front| {
        assert front[i] == records[i];
      }
    }
  }

  /** A key no record is filed under is not in the map. */
  lemma {:induction false} NodeMapOnlyRecordKeys(records: seq<ServiceRecord>, k: string)
    requires forall i :: 0 <= i < |records| ==> NodeKey(records[i]) != k
    ensures k !in BuildNodeMap(records)
    decreases |records|
  {
    if |records| > 0 {
      var front := records[..|records| - 1];
      assert forall i :: 0 <= i < |front| ==> front[i] == records[i];
      NodeMapOnlyRecordKeys(front, k);
    }
  }

  /** The entry under a key is the endpoint of the last record filed under
      it: a later record overwrites an earlier one. */
  lemma {:induction false} NodeMapLastWins(records: seq<ServiceRecord>, i: int)
    requires 0 <= i < |records| && LastWithItsKey(records, i)
    ensures BuildNodeMap(records)[NodeKey(records[i])] == EndpointOf(records[i])
    decreases |records|
  {
    if i < |records| - 1 {
      var front := records[..|records| - 1];
      assert front[i] == records[i];
      assert NodeKey(records[|records| - 1]) != NodeKey(records[i]);
      assert LastWithItsKey(front, i) by {
        forall j | i < j < |front|
          ensures NodeKey(front[j]) != NodeKey(front[i])
        {
          assert front[j] == records[j];
        }
      }
      NodeMapLastWins(front, i);
    }
  }

  /** getNodeOfService after the HTTP call: nil (here the empty map) when
      the reply does not decode, otherwise the map built from the records. */
  function NodeMap(reply: ServiceReply): (m: map<string, Endpoint>)
    ensures reply.ServiceUndecodable? ==> m == map[]
    ensures reply.ServiceRecords? ==> |m| <= |reply.records|
    ensures reply.ServiceRecords? ==> forall i :: 0 <= i < |reply.records| ==> NodeKey(reply.records[i]) in m
  {
    match reply
    case ServiceUndecodable => map[]
    case ServiceRecords(records) => BuildNodeMap(records)
  }

  /** Two records with the same CreateIndex collapse into one entry, so the
      map has fewer entries than the reply has records. */
  lemma {:induction false} NodeMapCollision(records: seq<ServiceRecord>, i: int, j: int)
    requires 0 <= i < j < |records|
    requires records[i].createIndex == records[j].createIndex
    ensures |BuildNodeMap(records)| < |records|
    decreases |records|
  {
    var front := records[..|records| - 1];
    var last := records[|records| - 1];
    var m0 := BuildNodeMap(front);
    assert BuildNodeMap(records) == m0[NodeKey(last) := EndpointOf(last)];
    MapUpdateSize(m0, NodeKey(last), EndpointOf(last));
    if j == |records| - 1 {
      assert front[i] == records[i];
      assert NodeKey(last) == NodeKey(front[i]);
    } else {
      assert front[i] == records[i] && front[j] == records[j];
      NodeMapCollision(front, i, j);
    }
  }

  /** Records filed under pairwise distinct keys all survive. */
  lemma {:induction false} NodeMapDistinctKeys(records: seq<ServiceRecord>)
    requires forall i, j :: 0 <= i < j < |records| ==> NodeKey(records[i]) != NodeKey(records[j])
    ensures |BuildNodeMap(records)| == |records|
    decreases |records|
  {
    if |records| > 0 {
      var front := records[..|records| - 1];
      var last := records[|records| - 1];
      assert forall i :: 0 <= i < |front| ==> front[i] == records[i];
      NodeMapDistinctKeys(front);
      var m0 := BuildNodeMap(front);
      NodeMapOnlyRecordKeys(front, NodeKey(last));
      assert BuildNodeMap(records).Keys == m0.Keys + {NodeKey(last)};
    }
  }

  // -------------------------------------------------------------- key/value

  /** The fields of a registry key/value record the tool reads. */
  datatype KVRecord = KVRecord(key: string, value: string)

  datatype KVReply = KVUndecodable | KVRecords(records: seq<KVRecord>)

  /** Go's string(b) for a byte slice, each byte read as the character
      with the same code. */
  function BytesToText(bs: seq<Base64.Byte>): (s: string)
    ensures |s| == |bs|
    ensures forall i :: 0 <= i < |bs| ==> s[i] as int == bs[i]
  {
    seq(|bs|, i requires 0 <= i < |bs| => bs[i] as char)
  }

  /** The decoded value of one record, decoding errors ignored. */
  function DecodedValue(r: KVRecord): string {
    BytesToText(Base64.DecodeString(r.value).bytes)
  }

  /** The loop over the records: each one overwrites the value kept so far. */
  function DecodeEach(records: seq<KVRecord>, kept: string): (v: string)
    ensures |records| == 0 ==> v == kept
    ensures |records| > 0 ==> v == DecodedValue(records[|records| - 1])
    decreases |records|
  {
    if |records| == 0 then kept
    else
      LastOfTail(records);
      DecodeEach(records[1..], DecodedValue(records[0]))
  }

  /** The last element of a tail longer than nothing is the last element. */
  lemma LastOfTail<T>(s: seq<T>)
    requires |s| > 0
    ensures |s| > 1 ==> s[1..][|s[1..]| - 1] == s[|s| - 1]
  {
  }

  /** getKVValue after the HTTP call: the empty string when the reply does
      not decode or holds no record, else the decoded value of the last
      record. */
  function KVValue(reply: KVReply): (v: string)
    ensures reply.KVUndecodable? ==> v == ""
    ensures reply.KVRecords? && |reply.records| == 0 ==> v == ""
    ensures reply.KVRecords? && |reply.records| > 0 ==>
              v == DecodedValue(reply.records[|reply.records| - 1])
  {
    match reply
    case KVUndecodable => ""
    case KVRecords(records) => DecodeEach(records, "")
  }

  /** A value stored as the base64 encoding of some bytes is read back as
      exactly those bytes. */
  lemma KVValueRoundTrip(reply: KVReply, bs: seq<Base64.Byte>)
    requires reply.KVRecords? && |reply.records| > 0
    requires reply.records[|reply.records| - 1].value == Base64.Encode(bs)
    ensures KVValue(reply) == BytesToText(bs)
  {
    Base64.EncodeDecodeRoundTrip(bs);
  }

  // ----------------------------------------------------------------- health

  /** The store's health record as Go decodes it. */
  datatype VaultHealth = VaultHealth(
    clusterId: string, clusterName: string, version: string, serverTimeUtc: int,
    standby: bool, sealed: bool, initialized: bool)

  const ZeroHealth: VaultHealth := VaultHealth("", "", "", 0, false, false, false)

  datatype HealthReply = HealthUndecodable | HealthDecoded(health: VaultHealth)

  /** The record getVaultHealth reads: the zero record when decoding failed. */
  function HealthOf(reply: HealthReply): VaultHealth {
    match reply
    case HealthUndecodable => ZeroHealth
    case HealthDecoded(h) => h
  }

  const SealedField: string := "Sealed"
  const InitializedField: string := "Initialized"

  /** The two field names getVaultHealth knows are different names. */
  lemma FieldsDiffer()
    ensures SealedField != InitializedField
  {
    assert |SealedField| != |InitializedField|;
  }

  /** getVaultHealth's switch on the field name. */
  function HealthFlag(field: string, reply: HealthReply): (b: bool)
    ensures field == SealedField ==> b == HealthOf(reply).sealed
    ensures field == InitializedField ==> b == HealthOf(reply).initialized
    ensures b ==> field == SealedField || field == InitializedField
  {
    if field == SealedField then HealthOf(reply).sealed
    else if field == InitializedField then HealthOf(reply).initialized
    else false
  }

  /** A reply that does not decode reads as neither sealed nor initialized. */
  lemma HealthFlagUndecodable(field: string)
    ensures !HealthFlag(field, HealthUndecodable)
  {
  }
}

=== FILE: render.dfy ===
/** The store's init reply and the text the bootstrap prints (and may
    persist) from it: one "Unseal Key i: <share>" line per encoded share in
    reply order, a blank line, then the root token line and a blank line. */
module Render {
  import GoText

  /** The init reply fields: raw shares, base64 shares, root token. */
  datatype InitResponse = InitResponse(keys: seq<string>, keysBase64: seq<string>, rootToken: string)

  datatype InitReply = InitUndecodable | InitDecoded(response: InitResponse)

  /** What vaultInit returns: the zero response when decoding failed. */
  function ResponseOf(reply: InitReply): (r: InitResponse)
    ensures reply.InitUndecodable? ==> r.keysBase64 == [] && r.rootToken == ""
    ensures reply.InitDecoded? ==> r == reply.response
  {
    match reply
    case InitUndecodable => InitResponse([], [], "")
    case InitDecoded(response) => response
  }

  /** "Unseal Key " followed by the 1-based number of the share at index i. */
  function KeyLinePrefix(i: nat): string {
    "Unseal Key " + GoText.Itoa(i + 1) + ": "
  }

  const RootTokenPrefix: string := "\nInitial Root Token: "
  const RenderedSuffix: string := "\n\n"

  /** The share lines for keys, numbered from first + 1. */
  function KeyLines(keys: seq<string>, first: nat): string
    decreases |keys|
  {
    if |keys| == 0 then "" else KeyLinePrefix(first) + keys[0] + "\n" + KeyLines(keys[1..], first + 1)
  }

  /** The template's output for an init response. */
  function RenderKeys(response: InitResponse): string {
    KeyLines(response.keysBase64, 0) + RootTokenPrefix + response.rootToken + RenderedSuffix
  }

  predicate HasPrefix(s: string, p: string) {
    |p| <= |s| && s[..|p|] == p
  }

  /** Reads share lines numbered from first + 1 off the front of text;
      returns the shares read and the text left over. */
  function ParseKeyLines(text: string, first: nat): (r: (seq<string>, string))
    ensures |r.1| <= |text|
    decreases |text|
  {
    var p := KeyLinePrefix(first);
    if HasPrefix(text, p) && '\n' in text[|p|..] then
      var rest := text[|p|..];
      var n := GoText.IndexOf(rest, '\n');
      var (keys, tail) := ParseKeyLines(rest[n + 1..], first + 1);
      ([rest[..n]] + keys, tail)
    else ([], text)
  }

  datatype Parsed = Parsed(keys: seq<string>, rootToken: string) | Unparsable

  /** Reads the shares and root token back from rendered text. */
  function ParseRendered(text: string): Parsed {
    var (keys, tail) := ParseKeyLines(text, 0);
    if |tail| >= |RootTokenPrefix| + |RenderedSuffix| && HasPrefix(tail, RootTokenPrefix)
       && tail[|tail| - |RenderedSuffix|..] == RenderedSuffix
    then Parsed(keys, tail[|RootTokenPrefix|..|tail| - |RenderedSuffix|])
    else Unparsable
  }

  predicate NoLineBreaks(keys: seq<string>) {
    forall i :: 0 <= i < |keys| ==> '\n' !in keys[i]
  }

  /** The first line break of key + "\n" + more is the one after key. */
  lemma FirstBreakAfterKey(key: string, more: string)
    requires '\n' !in key
    ensures '\n' in key + "\n" + more
    ensures GoText.IndexOf(key + "\n" + more, '\n') == |key|
  {
    GoText.IndexOfFirst(key, '\n', more);
  }

  /** One share line is read off the front, then reading carries on. */
  lemma ParseOneKeyLine(key: string, first: nat, more: string)
    requires '\n' !in key
    ensures ParseKeyLines(KeyLinePrefix(first) + key + "\n" + more, first).0
         == [key] + ParseKeyLines(more, first + 1).0
    ensures ParseKeyLines(KeyLinePrefix(first) + key + "\n" + more, first).1
         == ParseKeyLines(more, first + 1).1
  {
    var p := KeyLinePrefix(first);
    var text := p + key + "\n" + more;
    assert text == p + (key + "\n" + more);
    assert HasPrefix(text, p);
    var rest := text[|p|..];
    assert rest == key + "\n" + more;
    FirstBreakAfterKey(key, more);
    assert rest[..|key|] == key;
    assert rest[|key| + 1..] == more;
  }

  /** Text that does not start with 'U' holds no share line. */
  lemma NothingToParse(text: string, first: nat)
    requires |text| == 0 || text[0] != 'U'
    ensures ParseKeyLines(text, first) == ([], text)
  {
    var p := KeyLinePrefix(first);
    assert p[0] == 'U';
  }

  /** Share lines are read back exactly, whatever follows them, as long as
      what follows does not itself start like a share line. */
  lemma {:induction false} ParseKeyLinesOf(keys: seq<string>, first: nat, suffix: string)
    requires NoLineBreaks(keys)
    requires |suffix| == 0 || suffix[0] != 'U'
    ensures ParseKeyLines(KeyLines(keys, first) + suffix, first) == (keys, suffix)
    decreases |keys|
  {
    if |keys| == 0 {
      assert KeyLines(keys, first) + suffix == suffix;
      NothingToParse(suffix, first);
    } else {
      var tailKeys := keys[1..];
      assert NoLineBreaks(tailKeys) by {
        assert forall i :: 0 <= i < |tailKeys| ==> tailKeys[i] == keys[i + 1];
      }
      ParseKeyLinesOf(tailKeys, first + 1, suffix);
      ParseKeyLineStep(keys, first, suffix);
    }
  }

  /** Reading the first share line, then the others as before. */
  lemma ParseKeyLineStep(keys: seq<string>, first: nat, suffix: string)
    requires |keys| > 0 && '\n' !in keys[0]
    requires ParseKeyLines(KeyLines(keys[1..], first + 1) + suffix, first + 1) == (keys[1..], suffix)
    ensures ParseKeyLines(KeyLines(keys, first) + suffix, first) == (keys, suffix)
  {
    var more := KeyLines(keys[1..], first + 1) + suffix;
    KeyLinesCons(keys, first, suffix);
    ParseOneKeyLine(keys[0], first, more);
    assert [keys[0]] + keys[1..] == keys;
  }

  /** The share lines of keys followed by a suffix: the first share's line,
      then the lines of the others followed by the suffix. */
  lemma KeyLinesCons(keys: seq<string>, first: nat, suffix: string)
    requires |keys| > 0
    ensures KeyLines(keys, first) + suffix
         == KeyLinePrefix(first) + keys[0] + "\n" + (KeyLines(keys[1..], first + 1) + suffix)
  {
    var line := KeyLinePrefix(first) + keys[0] + "\n";
    assert KeyLines(keys, first) == line + KeyLines(keys[1..], first + 1);
    GoText.AppendAssoc(line, KeyLines(keys[1..], first + 1), suffix);
  }

  /** Round trip: parsing the rendered text recovers the shares, in order,
      and the root token. */
  lemma ParseRenderKeys(response: InitResponse)
    requires NoLineBreaks(response.keysBase64)
    ensures ParseRendered(RenderKeys(response)) == Parsed(response.keysBase64, response.rootToken)
  {
    var tail := RootTokenPrefix + response.rootToken + RenderedSuffix;
    assert RenderKeys(response) == KeyLines(response.keysBase64, 0) + tail;
    ParseKeyLinesOf(response.keysBase64, 0, tail);
    assert tail[..|RootTokenPrefix|] == RootTokenPrefix;
    assert tail[|tail| - |RenderedSuffix|..] == RenderedSuffix;
    assert tail[|RootTokenPrefix|..|tail| - |RenderedSuffix|] == response.rootToken;
  }
}

=== FILE: unseal.dfy ===
/** vaultUnsealCluster: read the unseal keys from the first line of standard
    input, refuse a key count that differs from the configured threshold,
    then visit every node: skip it when it reports itself unsealed, else
    submit every key and re-probe. */
module Unseal {
  import opened Events
  import opened Orchestrator
  import GoText
  import Config
  import Registry

  /** The keys read from standard input: the text up to the first line
      break (ReadString('\n') keeps the break, and strings.Replace drops
      it), split on single spaces. Input without a line break ends in a
      read error, and then no key is read. */
  function KeysFromInput(stdin: string): (keys: seq<string>)
    ensures '\n' !in stdin ==> keys == []
    ensures '\n' in stdin ==> keys == GoText.Split(stdin[..GoText.IndexOf(stdin, '\n')], ' ')
    ensures '\n' in stdin ==>
              |keys| >= 1 && GoText.Join(keys, ' ') == stdin[..GoText.IndexOf(stdin, '\n')]
              && |keys| == GoText.Occurrences(stdin[..GoText.IndexOf(stdin, '\n')], ' ') + 1
    ensures forall i :: 0 <= i < |keys| ==> ' ' !in keys[i]
  {
    if '\n' in stdin then
      var n := GoText.IndexOf(stdin, '\n');
      var line := stdin[..n + 1];
      assert line == stdin[..n] + ['\n'];
      GoText.RemoveAllLast(stdin[..n], '\n');
      GoText.Split(GoText.RemoveAll(line, '\n'), ' ')
    else []
  }

  /** Keys typed on one line, separated by single spaces, are read back
      exactly, whatever follows the line. */
  lemma KeysFromLine(keys: seq<string>, rest: string)
    requires |keys| >= 1
    requires forall i :: 0 <= i < |keys| ==> ' ' !in keys[i] && '\n' !in keys[i]
    ensures KeysFromInput(GoText.Join(keys, ' ') + "\n" + rest) == keys
  {
    var line := GoText.Join(keys, ' ');
    GoText.JoinAvoids(keys, ' ', '\n');
    GoText.IndexOfFirst(line, '\n', rest);
    GoText.SplitJoin(keys, ' ');
  }

  /** The count check: the key count, written in decimal, must be the
      threshold string itself. */
  predicate CountMatches(keys: seq<string>, threshold: string) {
    GoText.Itoa(|keys|) == threshold
  }

  /** A passing count check means the threshold, read as a number, is the
      key count; and only one count passes for a given threshold. */
  lemma CountMatchesMeansThreshold(keys: seq<string>, other: seq<string>, threshold: string)
    requires |keys| <= GoText.MaxInt64
    requires CountMatches(keys, threshold)
    ensures GoText.Atoi(threshold) == |keys|
    ensures CountMatches(other, threshold) <==> |other| == |keys|
  {
    GoText.AtoiItoa(|keys|);
    if CountMatches(other, threshold) {
      GoText.ItoaInjective(|other|, |keys|);
    }
  }

  /** A threshold written with a leading zero, a sign or spaces never
      passes, whatever the key count. */
  lemma NonCanonicalThresholdRejected(keys: seq<string>, threshold: string)
    requires (|threshold| > 1 && threshold[0] == '0') || (|threshold| > 0 && !GoText.IsDigit(threshold[0]))
    ensures !CountMatches(keys, threshold)
  {
    var s := GoText.Itoa(|keys|);
    assert GoText.AllDigits(s);
    if |s| > 1 {
      assert s[0] != '0' by {
        assert s == GoText.NatToDecimal(|keys|);
      }
    }
  }

  /** One interactive unseal: the events before the loop, then one round
      per node in iteration order. */
  datatype Session = Session(prelude: seq<Event>, rounds: seq<seq<Event>>)

  function Trace(s: Session): seq<Event> {
    s.prelude + Flatten(s.rounds)
  }

  /** vaultUnsealCluster with the token from the environment, the parsed
      configuration file, standard input, and the registry and store as w. */
  function UnsealCluster(token: string, file: Config.ConfigFile, stdin: string, w: World): (s: Session)
    requires Consistent(w)
    ensures var c := Config.ReadConfig(file);
            !CountMatches(KeysFromInput(stdin), c.init.threshold) ==>
              s.rounds == [] && NetworkFree(s.prelude)
              && |s.prelude| > 0 && s.prelude[|s.prelude| - 1] == Abort(KeyCountMismatch(c.init.threshold))
    ensures var c := Config.ReadConfig(file);
            CountMatches(KeysFromInput(stdin), c.init.threshold) ==>
              s.prelude == ConfigLog(file) + Discover(token, c, w).events
              && s.rounds == Sweep(s.prelude, KeysFromInput(stdin), w)
  {
    var c := Config.ReadConfig(file);
    var keys := KeysFromInput(stdin);
    if CountMatches(keys, c.init.threshold) then Unseal(token, file, keys, w)
    else Refuse(file, c.init.threshold)
  }

  /** The panic on a key count that differs from the threshold, after the
      configuration was read and before anything else. */
  function Refuse(file: Config.ConfigFile, threshold: string): (s: Session)
    ensures s.rounds == [] && NetworkFree(s.prelude)
    ensures |s.prelude| > 0 && s.prelude[|s.prelude| - 1] == Abort(KeyCountMismatch(threshold))
    ensures Inits(Trace(s)) == [] && Persists(Trace(s)) == []
  {
    var log := ConfigLog(file);
    var prelude := log + [Abort(KeyCountMismatch(threshold))];
    assert NetworkFree(prelude) by {
      assert forall i :: 0 <= i < |log| ==> prelude[i] == log[i];
    }
    Single(Abort(KeyCountMismatch(threshold)));
    PreludeQuiet(log, [Abort(KeyCountMismatch(threshold))]);
    assert Flatten([]) == [];
    assert Trace(Session(prelude, [])) == prelude;
    Session(prelude, [])
  }

  /** The loop over the nodes once the count check passed. */
  function Unseal(token: string, file: Config.ConfigFile, keys: seq<string>, w: World): (s: Session)
    requires Consistent(w)
    ensures s.prelude == ConfigLog(file) + Discover(token, Config.ReadConfig(file), w).events
    ensures s.rounds == Sweep(s.prelude, keys, w)
  {
    var prelude := ConfigLog(file) + Discover(token, Config.ReadConfig(file), w).events;
    Session(prelude, Sweep(prelude, keys, w))
  }

  /** The loop over the node map in iteration order, each node checked
      and, when sealed, given every key. */
  function Sweep(before: seq<Event>, keys: seq<string>, w: World): (rounds: seq<seq<Event>>)
    requires Consistent(w)
    ensures |rounds| == |w.unsealOrder|
    ensures Inits(Flatten(rounds)) == [] && Persists(Flatten(rounds)) == []
  {
    RoundsProperties(InteractiveMode, before, Registry.KVValue(w.kv), Registry.NodeMap(w.catalog), w.unsealOrder, keys, w.health);
    Rounds(InteractiveMode, before, Registry.KVValue(w.kv), Registry.NodeMap(w.catalog), w.unsealOrder, keys, w.health)
  }

  /** Each node in iteration order gets an interactive round with every
      key, run after the rounds before it. */
  lemma SweepRounds(before: seq<Event>, keys: seq<string>, w: World)
    requires Consistent(w)
    ensures var rounds := Sweep(before, keys, w);
            forall i :: 0 <= i < |w.unsealOrder| ==>
              IsRound(InteractiveMode, before + Flatten(rounds[..i]), rounds[i],
                      w.unsealOrder[i], UnsealNode(w, i), keys, w.health)
  {
    RoundsFollowAll(InteractiveMode, before, Registry.KVValue(w.kv), Registry.NodeMap(w.catalog), w.unsealOrder, keys, w.health);
  }

  /** A refused key count ends the run in the panic naming the threshold. */
  lemma RefusalMessage(token: string, file: Config.ConfigFile, stdin: string, w: World)
    requires Consistent(w)
    requires !CountMatches(KeysFromInput(stdin), Config.ReadConfig(file).init.threshold)
    ensures PanicText(Trace(UnsealCluster(token, file, stdin, w)))
         == "The number of 'unseal key' should be equal " + Config.ReadConfig(file).init.threshold + ", try again."
  {
    var s := UnsealCluster(token, file, stdin, w);
    assert Flatten([]) == [];
    assert Trace(s) == s.prelude;
  }

  /** The configuration error line followed by registry reads or a panic
      makes no init call and writes no file. */
  lemma PreludeQuiet(log: seq<Event>, more: seq<Event>)
    requires forall i :: 0 <= i < |log| ==> log[i].Say?
    requires Inits(more) == [] && Persists(more) == []
    ensures Inits(log + more) == [] && Persists(log + more) == []
  {
    SayOnly(log);
    ConcatInits(log, more);
    ConcatPersists(log, more);
  }

  /** Once the count check passes, every node of the node map gets one
      round, in iteration order: probed for Sealed; left alone when it
      reports unsealed; otherwise sent every key, then probed again. */
  lemma UnsealVisitsEveryNode(token: string, file: Config.ConfigFile, stdin: string, w: World)
    requires Consistent(w)
    requires CountMatches(KeysFromInput(stdin), Config.ReadConfig(file).init.threshold)
    ensures var s := UnsealCluster(token, file, stdin, w);
            |s.rounds| == |Registry.NodeMap(w.catalog)|
            && forall i :: 0 <= i < |w.unsealOrder| ==>
                 IsRound(InteractiveMode, s.prelude + Flatten(s.rounds[..i]), s.rounds[i],
                         w.unsealOrder[i], UnsealNode(w, i), KeysFromInput(stdin), w.health)
  {
    var s := UnsealCluster(token, file, stdin, w);
    EnumerationSize(Registry.NodeMap(w.catalog), w.unsealOrder);
    SweepRounds(s.prelude, KeysFromInput(stdin), w);
  }

  /** A session whose prelude and rounds make no init call and write no
      file makes none as a whole. */
  lemma QuietSession(s: Session)
    requires Inits(s.prelude) == [] && Persists(s.prelude) == []
    requires Inits(Flatten(s.rounds)) == [] && Persists(Flatten(s.rounds)) == []
    ensures Inits(Trace(s)) == [] && Persists(Trace(s)) == []
  {
    ConcatInits(s.prelude, Flatten(s.rounds));
    ConcatPersists(s.prelude, Flatten(s.rounds));
  }

  /** The interactive unseal never initialises the store and never writes
      the key file. */
  lemma UnsealQuiet(token: string, file: Config.ConfigFile, stdin: string, w: World)
    requires Consistent(w)
    ensures Inits(Trace(UnsealCluster(token, file, stdin, w))) == []
    ensures Persists(Trace(UnsealCluster(token, file, stdin, w))) == []
  {
    if CountMatches(KeysFromInput(stdin), Config.ReadConfig(file).init.threshold) {
      MatchedQuiet(token, file, stdin, w);
    } else {
      RefusedQuiet(token, file, stdin, w);
    }
  }

  lemma MatchedQuiet(token: string, file: Config.ConfigFile, stdin: string, w: World)
    requires Consistent(w)
    requires CountMatches(KeysFromInput(stdin), Config.ReadConfig(file).init.threshold)
    ensures Inits(Trace(UnsealCluster(token, file, stdin, w))) == []
    ensures Persists(Trace(UnsealCluster(token, file, stdin, w))) == []
  {
    var s := UnsealCluster(token, file, stdin, w);
    var log := ConfigLog(file);
    var d := Discover(token, Config.ReadConfig(file), w);
    PreludeQuiet(log, d.events);
    assert s.prelude == log + d.events;
    QuietSession(s);
  }

  lemma RefusedQuiet(token: string, file: Config.ConfigFile, stdin: string, w: World)
    requires Consistent(w)
    requires !CountMatches(KeysFromInput(stdin), Config.ReadConfig(file).init.threshold)
    ensures Inits(Trace(UnsealCluster(token, file, stdin, w))) == []
    ensures Persists(Trace(UnsealCluster(token, file, stdin, w))) == []
  {
  }
}
